=== FILE: README.md ===
# httpcache, modelled in Dafny

`httpcache` is a Go `http.RoundTripper` that puts a private HTTP cache in front of
another transport. This project models the cache's decision engine:

- **Cache-Control parsing.** The `Cache-Control` header is read into a directive map.
- **Freshness.** A stored response is classified as fresh, stale or transparent
  against a new request (RFC 7234, sections 4.2 and 5.2).
- **Hop-by-hop headers.** The hop-by-hop and end-to-end headers of a response are
  computed.
- **Vary.** A stored response is matched against a request through its `X-Varied-*`
  snapshot.
- **Range.** A `Range` header selects part of the stored body.
- **RoundTrip.** The `Transport.RoundTrip` flow covers:
  - lookup;
  - a fresh answer;
  - revalidation with `If-None-Match` / `If-Modified-Since`;
  - the 304 merge;
  - store or delete.
- **MemoryCache.** The in-memory store.

How the code is organised:

- **Pure logic** is written as functions, with lemmas about them:
  - directive parsing, freshness and range arithmetic;
  - the hop-by-hop set and the Vary snapshot.
- **Code that works step by step** is written as methods with loops. Each is proved
  equal to its function:
  - `ParseCacheControl`, `HeaderAllCommaSepValues` (which trims an `array` in place)
    and `GetFreshness`;
  - `GetEndToEndHeaders`, `VaryMatches` and `RecordVary`;
  - the 304 merge.
- **`MemoryCache` and `Transport` are classes.** The store's map is a field that
  `Set` and `Delete` reassign. `RoundTrip` is a method that changes the store. Its
  contract states the new store and the result for every path through the code.

Modules:

- **`Text`** models Go's `strings.Split`, `strings.Trim`, `strings.TrimSpace` and
  `strconv.ParseInt` (base 10, 64 bits).
- **`Headers`** models `http.Header`, `Header.Get` and `Header.Set`,
  `http.CanonicalHeaderKey` (ASCII only), and `headerAllCommaSepValues`.
- **`CacheControl`** models `parseCacheControl` and `canStore`.
- **`Freshness`** models `Date` and `getFreshness`.
- **`HopByHop`** models `getEndToEndHeaders`.
- **`Vary`** models `varyMatches` and the X-Varied snapshot of `RoundTrip`.
- **`Ranges`** models the range block of `CachedResponse`.
- **`Http`** holds requests, responses, stored entries, `cacheKey` and
  `newGatewayTimeoutResponse`.
- **`MemoryStore`** models `MemoryCache`.
- **`Revalidation`** models `CachedResponse` and the value steps of `RoundTrip`.
- **`Caching`** holds `Transport` and `RoundTrip`.

Time is counted in whole seconds. A `Clock` value carries the current time and the
RFC 1123 date parser. The parser is a parameter, because the model does not implement
date parsing.

The transport that requests are forwarded to is a parameter of `RoundTrip`: a function
from request to response or error. `RoundTrip` also returns the request it forwarded, if
any, so "answered without any network traffic" is stated as `sent == None`.

Three behaviours of the code are worth knowing. The model keeps each as written.

- **Exclusive range end.** `Range: bytes=S-E` selects bytes S up to but *excluding* E.
  So `bytes=2-5` on `abcdefghij` serves `cde`, not the `cdef` of RFC 7233's inclusive
  reading.
- **Forced deletion is overridden.** On a non-200 answer, RoundTrip deletes the key.
  But the store step that follows stores the answer again whenever neither side says
  `no-store` (`Revalidation.StoredForgetsKey`). The same store step also stores the
  locally made 504 of an `only-if-cached` miss.
- **A ranged request can shrink a stored body that has no length.** A stale entry read
  for a request with a `Range` header has its body cut to the range, but keeps the
  `ContentLength` it was read back with. If the origin answers 304, the cut body is
  merged and dumped for the store. The dump of an entry read back with a length fails
  (the length no longer matches the body), so nothing is stored and the full entry
  stays. Only an entry read back without a length (chunked or close-delimited) is
  overwritten with the cut body. The model does not know the length and always stores
  the cut body.

## Model

| member | source | states |
|---|---|---|
| Text.Split | httpcache.go:495 | `strings.Split` with a one-character separator is never empty, and has more than one piece exactly when the separator occurs |
| Text.SplitPiecesLackSep | httpcache.go:519 | no piece of a split holds the separator |
| Text.JoinSplit | httpcache.go:495 | joining the pieces with the separator gives the original string back |
| Text.IndexOf | httpcache.go:500-501 | the first occurrence of a character: nothing before it matches, and it is the length exactly when the character is absent |
| Text.SplitFirst | httpcache.go:501-502 | the first piece is the text before the first separator, and the other pieces are the split of the text after it |
| Text.SplitAround | httpcache.go:73-75 | splitting `a + sep + b` with `sep` not in `a` gives `a` followed by the pieces of `b` |
| Text.TrimKeepsOut | httpcache.go:496 | trimming never introduces a character the input lacks |
| Text.TrimKeepsEdge | httpcache.go:496-500 | trimming spaces keeps every other character the input holds, such as `=` |
| Text.DecimalRoundTrip | httpcache.go:100 | `strconv.ParseInt` reads back every printed natural number, and within 64 bits reports success |
| Headers.CanonicalKey | httpcache.go:196 | `CanonicalHeaderKey` keeps the length of the name |
| Headers.CanonicalIdempotent | httpcache.go:196 | canonicalising twice is canonicalising once |
| Headers.CanonicalBehindPrefix | httpcache.go:197 | a canonical name behind the prefix `X-Varied-` stays as it is |
| Headers.Set | httpcache.go:298 | `Header.Set` makes `Get` return the value, and leaves the values of every other canonical name unchanged |
| Headers.TrimEach | httpcache.go:520-522 | the in-place loop leaves the array holding every original field, trimmed of white space |
| Headers.HeaderAllCommaSepValues | httpcache.go:516-526 | the result is the concatenation, line by line, of the trimmed comma-separated fields of every value under the canonical name |
| Headers.CommaSepValuesMembers | httpcache.go:516-526 | a value is in the result exactly when some header line has a comma-separated field that trims to it |
| Headers.CommaSepValuesHaveNoComma | httpcache.go:519-523 | no value in the result contains a comma |
| CacheControl.FoldKeys | httpcache.go:495-506 | a key is in the map filled part by part exactly when some part sets it |
| CacheControl.FoldLastWins | httpcache.go:502-504 | a later part overrides an earlier one for the same directive |
| CacheControl.ParseCacheControl | httpcache.go:492-508 | the loop fills the directive map as the part-by-part specification does |
| CacheControl.DirectivePresent | httpcache.go:495-506 | a directive is present exactly when a non-blank comma-separated part of the first `Cache-Control` line names it |
| CacheControl.DirectiveValue | httpcache.go:500-505 | a directive's value is the one in the last part that names it |
| CacheControl.BareDirective | httpcache.go:503-505 | a part without `=` is a directive named by the trimmed part, with the value "" |
| CacheControl.AssignedDirective | httpcache.go:500-502 | a part with `=` names the space-trimmed text before its first `=`, with the text between the first and second `=` as value |
| CacheControl.CanStoreIff | httpcache.go:455-463 | storing is forbidden exactly when the request or the response names `no-store` |
| CacheControl.CanStore | httpcache.go:455-463 | a response may be stored exactly when neither the request's nor the response's directives hold no-store |
| Freshness.Seconds | httpcache.go:371 | a parsed duration is within the range of a Go `time.Duration` |
| Freshness.Date | httpcache.go:315-323 | no Date header gives no date; otherwise the date is what the date parser makes of the header |
| Freshness.GetFreshness | httpcache.go:346-425 | the step-by-step computation returns the verdict of the precedence chain |
| Freshness.LifetimeOf | httpcache.go:365-393 | the lifetime is the response `max-age`, else Expires minus Date, then replaced by a request `max-age` (0 when unparseable) |
| Freshness.TransparentIff | httpcache.go:349-351 | the verdict is transparent exactly when the request says `no-cache` |
| Freshness.ResponseNoCacheStale | httpcache.go:352-354 | otherwise a response `no-cache` gives stale |
| Freshness.OnlyIfCachedFresh | httpcache.go:355-357 | otherwise a request `only-if-cached` gives fresh |
| Freshness.NoDateStale | httpcache.go:359-362 | otherwise a missing or unparseable Date gives stale |
| Freshness.ResponseLifetimeWindow | httpcache.go:363-424 | without request directives, fresh exactly while now is before Date plus the response's lifetime |
| Freshness.MaxAgeOverridesExpires | httpcache.go:368-376 | with a response `max-age`, the lifetime is that value whatever Expires says |
| Freshness.ExpiresWindow | httpcache.go:375-384 | with Expires and no `max-age`, fresh exactly while now is before Expires |
| Freshness.RequestMaxAgeWindow | httpcache.go:387-393 | a request `max-age=n` makes the response fresh exactly while its age is below n |
| Freshness.MinFreshWindow | httpcache.go:394-400 | `min-fresh=m` demands m more seconds of lifetime |
| Freshness.MaxStaleWindow | httpcache.go:414-417 | `max-stale=s` accepts s seconds past the lifetime |
| Freshness.MaxStaleAnyAge | httpcache.go:411-413 | a value-less `max-stale` gives fresh at any age |
| Freshness.StaleStaysStale | httpcache.go:363-424 | a stale response stays stale as the clock advances |
| HopByHop.EndToEnd | httpcache.go:446-451 | the end-to-end names are names of the response |
| HopByHop.GetEndToEndHeaders | httpcache.go:427-453 | the result lists exactly the corrected end-to-end names (see Findings), each once; when no Connection option is padded with spaces these are exactly the names the code returns |
| HopByHop.AddOptions | httpcache.go:429-445 | the first loop, corrected to trim each option before canonicalising it (see Findings), yields the fixed hop-by-hop names plus the name each non-blank Connection option declares |
| HopByHop.NamesOutside | httpcache.go:446-451 | the second loop collects exactly the response names outside the hop-by-hop set, each once |
| HopByHop.EndToEndIff | httpcache.go:429-451 | in the corrected reading (see Findings), a name is end-to-end exactly when the response has it, it is not fixed hop-by-hop, and no non-blank Connection option, once trimmed, names it |
| HopByHop.EndToEndAsWritten | httpcache.go:440-451 | the end-to-end names as the code computes them are names of the response and never fixed hop-by-hop names |
| HopByHop.EndToEndAsWrittenIff | httpcache.go:429-451 | as the code has it, a name is end-to-end exactly when the response has it, it is not fixed hop-by-hop, and no non-blank option canonicalises, untrimmed, to it |
| HopByHop.ConnectionOptionExcluded | httpcache.go:440-444 | every non-blank Connection option is kept out of the end-to-end names |
| HopByHop.AsWrittenAgreesWithoutSpaces | httpcache.go:440-444 | when no option is padded with spaces, the code's set and the corrected one agree |
| HopByHop.SpacedOptionMissed | httpcache.go:440-444 | an option written after `, ` is missed by the code and excluded by the corrected set |
| HopByHop.AsWrittenKeepsListedOption | httpcache.go:440-444 | with `Connection: close, Foo`, the code keeps `Foo` end-to-end |
| Vary.VaryMatches | httpcache.go:194-202 | true exactly when every non-blank canonicalised Vary name has the same request value as the remembered `X-Varied-` value |
| Vary.AllAgree | httpcache.go:195-201 | the loop with its early return decides agreement on every name |
| Vary.NoVaryMatches | httpcache.go:194-202 | a response without Vary matches every request |
| Vary.RecordedValue | httpcache.go:293-300 | a name's X-Varied header holds the request's value when the request carries it, and otherwise what the response had |
| Vary.RecordOnlyVaried | httpcache.go:293-300 | the snapshot changes only headers named `X-Varied-…` |
| Vary.SnapshotKeepsVary | httpcache.go:293-300 | the snapshot leaves the Vary names unchanged |
| Vary.SnapshotMatches | httpcache.go:194-202 | a response stored with a request's snapshot is matched by that request |
| Vary.SnapshotRejectsOther | httpcache.go:194-202 | a request differing in the value of a Vary name does not match |
| Vary.RecordVary | httpcache.go:293-300 | the loop records the request's non-empty Vary values, as the snapshot function does |
| Vary.RecordEach | httpcache.go:294-299 | the loop body is applied to the names in order |
| Ranges.Slice | httpcache.go:71-124 | an invalid range yields no body; otherwise the body is a contiguous part of the stored body, and empty only when the stored body is |
| Ranges.BytesHeader | httpcache.go:73-86 | a `bytes=` header is read from the text after `=` |
| Ranges.SuffixRange | httpcache.go:98-124 | `bytes=-N` is the last N bytes; N = 0 is an error |
| Ranges.OpenRange | httpcache.go:107-124 | `bytes=S-` is everything from S; S at or past the end is an error |
| Ranges.ClosedRange | httpcache.go:115-124 | `bytes=S-E` is `[S, E)`; an empty or backwards span is an error |
| Ranges.UnparsedStartIsZero | httpcache.go:116 | in `S-E` an unparseable start reads as 0 |
| Ranges.UnparsedSuffixFails | httpcache.go:100-104 | an unparseable count in `-N` is an error |
| Ranges.UnparsedOpenFails | httpcache.go:108-112 | an unparseable start in `S-` is an error |
| Ranges.OtherUnitWhole | httpcache.go:76-79 | a unit other than `bytes` leaves the body whole |
| Ranges.FirstSubRangeOnly | httpcache.go:82-86 | only the first sub-range of a list is honoured |
| Ranges.ClosedRangeExample | httpcache.go:115-124 | `bytes=2-5` on `abcdefghij` serves `cde` |
| Ranges.PastEndExample | httpcache.go:115-124 | `bytes=0-20` on a 10-byte body ends past the body and is not readable |
| Http.Dump | httpcache.go:301 | a dumped response reads back unchanged |
| Http.CacheKey | httpcache.go:53-55 | a request is stored under its URL, whatever its method and headers |
| Http.GatewayTimeout | httpcache.go:465-473 | the synthesised response has status 504, no headers and no body |
| MemoryStore.MemoryCache.constructor | httpcache.go:158-161 | a new store is empty |
| MemoryStore.MemoryCache.Get | httpcache.go:136-141 | an entry is returned exactly when the key is present, and it is the stored one |
| MemoryStore.MemoryCache.Set | httpcache.go:144-148 | the key maps to the new entry and nothing else changes |
| MemoryStore.MemoryCache.Delete | httpcache.go:151-155 | the key is removed and nothing else changes |
| Revalidation.CachedResponse | httpcache.go:59-127 | the entry for the request's URL, cut to its Range: a miss, a hit, or unusable when it does not read back or the range is invalid |
| Revalidation.LookupHit | httpcache.go:59-127 | a miss is exactly a missing key; a hit keeps the stored status and headers and a contiguous part of the body, all of it without Range |
| Revalidation.Marked | httpcache.go:234-236 | marking sets `X-From-Cache: 1`, keeps every other header's values, the status line, the code and the body; without marking the response is unchanged |
| Revalidation.AddValidators | httpcache.go:245-255 | the request is given validators as the corrected revalidation defines them |
| Revalidation.ValidatorsChosen | httpcache.go:245-255 | each condition keeps the caller's value, else takes the entry's validator |
| Revalidation.ValidatorsOnly | httpcache.go:245-255 | only the two conditional headers of the request change |
| Revalidation.AsWrittenOverwritesCondition | httpcache.go:247-250 | the code replaces a caller's `If-None-Match` by the entry's ETag |
| Revalidation.AsWrittenAgreesWhenUnset | httpcache.go:245-255 | when the caller set no condition and no ETag/Last-Modified header, the code and the corrected revalidation agree |
| Revalidation.ValidatedAsWritten | httpcache.go:245-255 | as the code adds them, If-None-Match becomes the entry's ETag whenever the entry has one and the request has no ETag header, and If-Modified-Since likewise with Last-Modified; method, URL and every other header's values stay |
| Revalidation.MergeFields | httpcache.go:259-268 | after a 304, end-to-end headers come from the 304 and the rest from the cached response; status 200 and the cached body |
| Revalidation.MergeRefreshesETag | httpcache.go:259-268 | a new ETag on a 304 replaces the cached one, and the body stays |
| Revalidation.MergeNotModified | httpcache.go:259-268 | the copying loop and status update produce the corrected merged response; when no Connection option of the 304 is padded this is exactly the code's merge |
| Revalidation.MergeAgreesWithoutSpaces | httpcache.go:259-268 | the code's 304 merge and the corrected one agree when no Connection option of the 304 is padded with spaces |
| Revalidation.AsWrittenMergeCopiesListedOption | httpcache.go:259-268 | on a 304 with `Connection: close, Foo` the code copies `Foo` onto the cached response and the corrected merge does not |
| Revalidation.MergeAsWritten | httpcache.go:259-268 | the code's 304 merge: status 200 OK and the cached body; the headers the code takes as end-to-end come from the 304, every other cached header stays, and nothing else is added |
| Revalidation.CopyAllOverlay | httpcache.go:262-264 | copying names one at a time is the same as overlaying the set of them, in any order |
| Revalidation.CopyFields | httpcache.go:262-264 | the loop overlays the listed names |
| Revalidation.Stored | httpcache.go:289-307 | after the store step the key holds the finished response exactly when neither side says `no-store`, and other keys are unchanged |
| Revalidation.StoredForgetsKey | httpcache.go:269-307 | a deletion made before the store step never shows afterwards |
| Revalidation.StoreThenLookup | httpcache.go:289-307 | a stored response is found again by the same request, and its Vary snapshot matches it |
| Caching.Transport.constructor | httpcache.go:166-173 | the transport keeps the given store and marking flag |
| Caching.Transport.Store | httpcache.go:289-307 | records the Vary values and stores the response when storable, deletes the key otherwise |
| Caching.Transport.ServeMiss | httpcache.go:277-308 | without a usable entry: a 504 and no network traffic under `only-if-cached`; else the transport's answer, stored or deleted, and a transport error leaves the store as it was |
| Caching.Transport.ServeHit | httpcache.go:233-308 | with a usable entry: fresh is served untouched; otherwise forwards, with validators when stale; on error deletes; on a 304 to a GET stores the merged entry; else stores or deletes the answer; validators and the 304 merge are the corrected ones (see Findings) |
| Caching.Transport.RoundTrip | httpcache.go:212-309 | a method other than GET/HEAD deletes the key and is forwarded; a cacheable request follows the miss or hit case, the hit case with the corrected validators and 304 merge (see Findings) |
| Caching.ForwardedAgreesWhenUnset | httpcache.go:245-255 | a caller that set no condition and carries no ETag or Last-Modified header is forwarded the same request by the code and by the corrected RoundTrip |
| Caching.ForwardedAsWritten | httpcache.go:245-255 | the request the code forwards for a usable entry: with validators added as the code adds them when the entry is stale, the request itself otherwise; method and URL unchanged |
| Caching.ForwardedAsWrittenOverwrites | httpcache.go:245-255 | for a stale entry with an ETag and a caller's own differing If-None-Match, the code forwards the entry's ETag and the corrected RoundTrip the caller's condition |

## Left out

- Logging (`logger`, `SetLogging`) is diagnostics only.
- The lock of `MemoryCache` is concurrency control. Only the map semantics are
  modelled.
- `Client`, `NewTransport`, `NewMemoryCacheTransport` and the `http.DefaultTransport`
  fallback are wiring. The transport is a parameter of `RoundTrip`.
- Only `MemoryCache` implements the `Cache` interface; other stores are not part of
  this model.
- `cloneRequest` is modelled only by treating requests as values.
- The HTTP wire format of `httputil.DumpResponse` and `http.ReadResponse` is not
  modelled. A stored entry is either a dumped response or bytes that do not read back.
- Http.Dump: does not model a dump that fails. So the model always takes the `err == nil`
  branch of the store step. The code's dump fails whenever a range-cut body is stored
  back from an entry that was read back with a `Content-Length`: the response keeps the
  full length, and `httputil.DumpResponse` refuses a body of another length. The store
  is then skipped.
- Reading the stored body (`ioutil.ReadAll`) never fails here, so its error path is
  not modelled.
- The special handling of HEAD responses by `http.ReadResponse` is not modelled.
- Freshness.Seconds: models `time.ParseDuration(v + "s")` only for whole numbers
  (optional sign and digits). Fractions, unit suffixes inside `v` and the nanosecond
  resolution are left out.
- Freshness.GetFreshness: does not model the wrap-around of `time.Duration` (int64
  nanoseconds) when the age is adjusted. Arithmetic is on unbounded whole seconds.
- `time.Parse(time.RFC1123, …)` and `time.Since` are replaced by the injected `Clock`.
- Headers.CanonicalKey: covers ASCII names. Go's rejection of non-ASCII bytes is
  folded into "not a token character".
- Strings are sequences of characters, not bytes. `strings.TrimSpace` uses the
  character set of `unicode.IsSpace`.
- Caching.Transport.RoundTrip: requires that a stored entry's range, for a cacheable
  request, is `Ranges.Readable`. This excludes the panics of the Range code (a header
  without `=`, a form without `-`, a negative start) and also a range that ends past
  the stored body, where the code does not always panic (see `Ranges.Slice` below).
- Ranges.Slice: requires that the range does not end past the body. The code slices the
  buffer `ioutil.ReadAll` returned, whose capacity is at least 512 bytes, and panics
  only past that capacity. Below it the code serves bytes that are not in the stored
  body: on a 10-byte body, `bytes=0-20` serves 20 bytes (the last 10 are zero bytes) and
  `bytes=15-20` serves 5 zero bytes. The model does not know the buffer's capacity, so
  it excludes these inputs (`Ranges.PastEndExample`).
- Revalidation.CachedResponse: requires `Revalidation.Servable`, and so excludes the
  same inputs as `Ranges.Slice`, such as `bytes=0-20` or `bytes=15-20` on a 10-byte
  stored body, which the code serves padded with zero bytes.
- The panic in `newGatewayTimeoutResponse` cannot happen and is not modelled.
- The status text of `fmt.Sprintf("%d %s", …)` appears only as its result, `200 OK`.
- HopByHop.AddOptions: trims each Connection option before canonicalising it, as the
  corrected reading does. The code canonicalises the option untrimmed, so for
  `Connection: close, Foo` its set holds ` Foo` where the model's holds `Foo`. The code's
  set is `HopByHop.HopByHopNamesAsWritten` (shown by `HopByHop.AsWrittenKeepsListedOption`).
- Revalidation.AddValidators: decides whether the caller set a condition from
  `If-None-Match` and `If-Modified-Since`, as the corrected reading does. The code looks
  at the request's `ETag` and `Last-Modified`, so for a request with `If-None-Match: "v1"`
  and an entry with `ETag: "v2"` it sends `"v2"` where the model keeps `"v1"`. The code's
  step is `Revalidation.ValidatedAsWritten` (shown by
  `Revalidation.AsWrittenOverwritesCondition`).
- HopByHop.GetEndToEndHeaders: returns the corrected end-to-end names. For a response
  with `Connection: close, Foo` and a `Foo` header the code also returns `Foo`. The two
  agree when no option is padded with spaces (its last ensures); the code's set is
  `HopByHop.EndToEndAsWritten`.
- HopByHop.EndToEndIff: states the corrected rule, in which each option is trimmed.
  `HopByHop.EndToEndAsWrittenIff` states the code's rule, in which an option after `, `
  names no header.
- Revalidation.MergeNotModified: copies the corrected end-to-end set. On a 304 with
  `Connection: close, Foo` and a `Foo` header the code also copies `Foo`
  (`Revalidation.AsWrittenMergeCopiesListedOption`). The two agree when no option is
  padded (its second ensures).
- Caching.Transport.ServeHit: forwards `Revalidation.Validated` and merges with
  `HopByHop.EndToEnd`. So it does not state the code's behaviour in three cases:
  - a stale entry with `ETag: "v2"` and a request with `If-None-Match: "v1"` and no
    `ETag` header: the code sends `"v2"` (`Caching.ForwardedAsWrittenOverwrites`);
  - a 304 with `Connection: close, Foo` and a `Foo` header: the code copies `Foo`;
  - a stale entry with `Content-Length: 10`, a request with `Range: bytes=0-2` and a
    304 from the origin: the code's dump of the merged 2-byte response fails, so it
    keeps the 10-byte entry, while the model stores the 2-byte body (see `Http.Dump`).
  Outside these cases the two agree (`Caching.ForwardedAgreesWhenUnset`,
  `Revalidation.MergeAgreesWithoutSpaces`).
- Caching.Transport.RoundTrip: its hit case is `Caching.Transport.ServeHit`'s, with the
  same three differences from the code.

## Findings

| source | as written | input that shows it | evidently intended | confidence | as-written member | corrected member |
|---|---|---|---|---|---|---|
| httpcache.go:440-444 | each Connection option is canonicalised without trimming its spaces. An option after `, ` keeps its leading space and names no header. | a response with `Connection: close, Foo` and a `Foo` header. `Foo` stays end-to-end, and a 304 copies it onto the cached response. | every non-blank option listed in Connection is hop-by-hop | high, not executed | HopByHop.AsWrittenKeepsListedOption | HopByHop.ConnectionOptionExcluded |
| httpcache.go:245-254 | whether the caller already set the validators is decided from the request's own `ETag` and `Last-Modified` headers | a stale hit whose entry has `ETag: "v2"`, for a request with `If-None-Match: "v1"` and no `ETag` header. The code sends `If-None-Match: "v2"`. | a condition the caller set (`If-None-Match`, `If-Modified-Since`) is kept, as the comment at line 246 says | medium, not executed | Revalidation.AsWrittenOverwritesCondition | Revalidation.ValidatorsChosen |

`RoundTrip` uses both corrected definitions:

- the end-to-end set of the 304 merge is `HopByHop.EndToEnd`;
- the revalidation request is built by `Revalidation.Validated`.

The code's versions reach up to the same level: `Revalidation.MergeAsWritten` is its
304 merge and `Caching.ForwardedAsWritten` the request it forwards. The lemmas named in
the "## Left out" lines for `ServeHit` and `RoundTrip` relate the two.

=== FILE: cachecontrol.dfy ===
/** Cache-Control directives (section 5.2 of RFC 7234) as the cache reads them, and the
    store policy built on them. */
module CacheControl {
  import opened Wrappers
  import opened Text
  import opened Headers

  /** Directive name to its value; a directive without `=` has the value "". */
  type Directives = map<string, string>

  /** The map built by applying the entries left to right, a later entry for a key
      overriding an earlier one and `None` leaving the map as it is. */
  function Fold<K(==), V>(es: seq<Option<(K, V)>>): map<K, V> {
    if es == [] then map[]
    else
      var m := Fold(es[..|es| - 1]);
      match es[|es| - 1]
      case None => m
      case Some((k, v)) => m[k := v]
  }

  /** Entry `e` sets key `k`. */
  predicate Sets<K(==), V>(e: Option<(K, V)>, k: K) {
    e.Some? && e.value.0 == k
  }

  /** A key is in the folded map exactly when some entry sets it. */
  lemma FoldKeys<K, V>(es: seq<Option<(K, V)>>, k: K)
    ensures k in Fold(es) <==> exists i :: 0 <= i < |es| && Sets(es[i], k)
  {
    if k in Fold(es) {
      var i := SetBy(es, k);
    }
    if exists i :: 0 <= i < |es| && Sets(es[i], k) {
      var i :| 0 <= i < |es| && Sets(es[i], k);
      SetIn(es, k, i);
    }
  }

  lemma {:induction false} SetBy<K, V>(es: seq<Option<(K, V)>>, k: K) returns (i: nat)
    requires k in Fold(es)
    ensures i < |es| && Sets(es[i], k)
  {
    var n := |es| - 1;
    if Sets(es[n], k) {
      i := n;
    } else {
      i := SetBy(es[..n], k);
      assert es[..n][i] == es[i];
    }
  }

  lemma {:induction false} SetIn<K, V>(es: seq<Option<(K, V)>>, k: K, i: nat)
    requires i < |es| && Sets(es[i], k)
    ensures k in Fold(es)
  {
    var n := |es| - 1;
    if i < n {
      assert es[..n][i] == es[i];
      SetIn(es[..n], k, i);
    }
  }

  /** The value of a key is the one of the last entry that sets it. */
  lemma {:induction false} FoldLastWins<K, V>(es: seq<Option<(K, V)>>, k: K, i: nat)
    requires i < |es| && Sets(es[i], k)
    requires forall j :: i < j < |es| ==> !Sets(es[j], k)
    ensures k in Fold(es) && Fold(es)[k] == es[i].value.1
  {
    var n := |es| - 1;
    if i < n {
      assert !Sets(es[n], k);
      assert es[..n][i] == es[i];
      forall j | i < j < n ensures !Sets(es[..n][j], k) {
        assert es[..n][j] == es[j];
      }
      FoldLastWins(es[..n], k, i);
    }
  }

  /** The directive name of a space-trimmed, non-blank part: the text before the first `=`
      trimmed of spaces, or the whole part when it has no `=`. */
  function Name(p: string): string {
    if '=' in p then Trim(Split(p, '=')[0], ' ') else p
  }

  /** The directive value of a space-trimmed part: the text between the first and the
      second `=` (trimmed of commas, which a part never holds), or "" without `=`. */
  function Value(p: string): string {
    if '=' in p then Trim(Split(p, '=')[1], ',') else ""
  }

  /** The directive one comma-separated part sets: none when it trims to blank. */
  function Entry(part: string): Option<(string, string)> {
    var p := Trim(part, ' ');
    if p == "" then None else Some((Name(p), Value(p)))
  }

  function Entries(parts: seq<string>): seq<Option<(string, string)>> {
    seq(|parts|, i requires 0 <= i < |parts| => Entry(parts[i]))
  }

  /** The comma-separated parts of the first Cache-Control line of `h`. */
  function Parts(h: Header): seq<string> {
    Split(Get(h, "Cache-Control"), ',')
  }

  /** The directives of `h`, as parseCacheControl reads them. */
  function Of(h: Header): Directives {
    Fold(Entries(Parts(h)))
  }

  /** `parseCacheControl`: fills the directive map part by part. */
  method ParseCacheControl(h: Header) returns (cc: Directives)
    ensures cc == Of(h)
  {
    var parts := Parts(h);
    ghost var es := Entries(parts);
    cc := map[];
    for i := 0 to |parts|
      invariant cc == Fold(es[..i])
    {
      assert es[..i + 1][..i] == es[..i];
      var part := Trim(parts[i], ' ');
      if part == "" {
        continue;
      }
      if '=' in part {
        var keyval := Split(part, '=');
        cc := cc[Trim(keyval[0], ' ') := Trim(keyval[1], ',')];
      } else {
        cc := cc[part := ""];
      }
    }
    assert es[..|parts|] == es;
  }

  /** The part `part`, once trimmed of spaces, is not blank and names directive `k`. */
  predicate Names(part: string, k: string) {
    Sets(Entry(part), k)
  }

  /** A directive is present exactly when some part names it: parts that trim to blank
      are skipped and nothing else is invented. */
  lemma DirectivePresent(h: Header, k: string)
    ensures k in Of(h) <==> exists i :: 0 <= i < |Parts(h)| && Names(Parts(h)[i], k)
  {
    var parts := Parts(h);
    var es := Entries(parts);
    FoldKeys(es, k);
    if exists i :: 0 <= i < |es| && Sets(es[i], k) {
      var i :| 0 <= i < |es| && Sets(es[i], k);
      assert Names(parts[i], k);
    }
    if exists i :: 0 <= i < |parts| && Names(parts[i], k) {
      var i :| 0 <= i < |parts| && Names(parts[i], k);
      assert Sets(es[i], k);
    }
  }

  /** The value of a directive is the one of the last part that names it. */
  lemma DirectiveValue(h: Header, k: string, i: nat)
    requires i < |Parts(h)| && Names(Parts(h)[i], k)
    requires forall j :: i < j < |Parts(h)| ==> !Names(Parts(h)[j], k)
    ensures k in Of(h) && Of(h)[k] == Value(Trim(Parts(h)[i], ' '))
  {
    var es := Entries(Parts(h));
    forall j | i < j < |es| ensures !Sets(es[j], k) {
      assert !Names(Parts(h)[j], k);
    }
    FoldLastWins(es, k, i);
  }

  /** A part without `=` names itself, trimmed of spaces, with the value "". */
  lemma BareDirective(part: string)
    requires Trim(part, ' ') != "" && '=' !in part
    ensures Entry(part) == Some((Trim(part, ' '), ""))
  {
    TrimKeepsOut(part, ' ', '=');
  }

  /** A part with `=` splits at its first `=`: the name is the space-trimmed text before
      it, and the value is the text after it up to the next `=`. */
  lemma AssignedDirective(part: string)
    requires '=' in part && ',' !in part
    ensures var p := Trim(part, ' ');
      var i := IndexOf(p, '=');
      && '=' in p
      && Entry(part) == Some((Trim(p[..i], ' '), p[i + 1..][..IndexOf(p[i + 1..], '=')]))
  {
    var p := Trim(part, ' ');
    TrimKeepsEdge(part, ' ', '=');
    TrimKeepsOut(part, ' ', ',');
    var i := IndexOf(p, '=');
    SplitFirst(p, '=');
    SplitFirst(p[i + 1..], '=');
    assert Split(p, '=')[1] == Split(p[i + 1..], '=')[0];
    assert ',' !in p[i + 1..][..IndexOf(p[i + 1..], '=')];
    TrimAbsent(Split(p, '=')[1], ',');
  }

  /** `canStore`: a response may be stored unless the request or the response says
      `no-store`. */
  function CanStore(req: Directives, resp: Directives): (ok: bool)
    ensures ok <==> "no-store" !in req && "no-store" !in resp
  {
    "no-store" !in resp && "no-store" !in req
  }

  /** Some part of the first Cache-Control line of `h` names `no-store`. */
  predicate SaysNoStore(h: Header) {
    exists i :: 0 <= i < |Parts(h)| && Names(Parts(h)[i], "no-store")
  }

  /** Storing is forbidden exactly when a part of the request's or the response's
      Cache-Control names `no-store`, with or without a value. */
  lemma CanStoreIff(req: Header, resp: Header)
    ensures !CanStore(Of(req), Of(resp)) <==> SaysNoStore(req) || SaysNoStore(resp)
  {
    DirectivePresent(req, "no-store");
    DirectivePresent(resp, "no-store");
  }
}

=== FILE: freshness.dfy ===
/** Freshness classification of a cached response against a new request (section 4.2.1
    of RFC 7234 and the request directives of section 5.2.1), in whole seconds. */
module Freshness {
  import opened Wrappers
  import opened Text
  import opened Headers
  import opened CacheControl

  /** What the cache may do with a stored response: revalidate it, serve it, or ignore it. */
  datatype Verdict = Stale | Fresh | Transparent

  /** The two outside facts the classification needs: the current time, in whole seconds
      since the epoch (the clock reading rounded down), and the parser of HTTP dates
      (`time.Parse(time.RFC1123, …)`), which yields a timestamp or fails. */
  datatype Clock = Clock(now: int, parseDate: string -> Option<int>)

  /** The largest whole number of seconds a Go duration holds. */
  const MAX_SECONDS: int := 9223372036

  /** `time.ParseDuration(v + "s")` for a whole number of seconds: an optional sign and
      decimal digits, failing on anything else and on a value a duration cannot hold. */
  function Seconds(v: string): (d: Option<int>)
    ensures d.Some? ==> -MAX_SECONDS <= d.value <= MAX_SECONDS
  {
    match ParseInteger(v)
    case Some(n) => if -MAX_SECONDS <= n <= MAX_SECONDS then Some(n) else None
    case None => None
  }

  /** A parsed duration, or zero when it does not parse. */
  function SecondsOrZero(v: string): int {
    Seconds(v).GetOr(0)
  }

  /** `Date`: the response's Date header as a timestamp; none when the header is missing
      or does not parse. */
  function Date(h: Header, clock: Clock): (d: Option<int>)
    ensures Get(h, "date") == "" ==> d.None?
    ensures Get(h, "date") != "" ==> d == clock.parseDate(Get(h, "date"))
  {
    var d := Get(h, "date");
    if d == "" then None else clock.parseDate(d)
  }

  /** The response's Expires header, "" when it has none. */
  function ExpiresHeader(h: Header): string {
    Get(h, "Expires")
  }

  /** The lifetime the response grants: its `max-age` (zero when unparseable), else
      Expires minus Date (zero when Expires is unparseable or missing). */
  function ResponseLifetime(resp: Header, respCC: Directives, date: int, clock: Clock): int {
    if "max-age" in respCC then SecondsOrZero(respCC["max-age"])
    else
      var expires := ExpiresHeader(resp);
      if expires == "" then 0
      else match clock.parseDate(expires)
        case None => 0
        case Some(t) => t - date
  }

  /** The lifetime the freshness test uses: a request `max-age` replaces the response's. */
  function Lifetime(resp: Header, respCC: Directives, reqCC: Directives, date: int, clock: Clock): int {
    if "max-age" in reqCC then SecondsOrZero(reqCC["max-age"])
    else ResponseLifetime(resp, respCC, date, clock)
  }

  /** The current age after the request's `min-fresh` (added) and numeric `max-stale`
      (subtracted), each only when it parses. */
  function AdjustedAge(age: int, reqCC: Directives): int {
    var withMinFresh :=
      if "min-fresh" in reqCC && Seconds(reqCC["min-fresh"]).Some?
      then age + Seconds(reqCC["min-fresh"]).value else age;
    if "max-stale" in reqCC && Seconds(reqCC["max-stale"]).Some?
    then withMinFresh - Seconds(reqCC["max-stale"]).value else withMinFresh
  }

  /** The verdict for response headers `resp` and request headers `req`. */
  function Freshness(resp: Header, req: Header, clock: Clock): Verdict {
    Classify(resp, Of(resp), Of(req), clock)
  }

  /** The verdict once both Cache-Control headers are parsed, with its order of
      precedence: request no-cache, response no-cache, request only-if-cached, a usable
      Date, a value-less max-stale, and finally lifetime against adjusted age. */
  function Classify(resp: Header, respCC: Directives, reqCC: Directives, clock: Clock): Verdict {
    if "no-cache" in reqCC then Transparent
    else if "no-cache" in respCC then Stale
    else if "only-if-cached" in reqCC then Fresh
    else match Date(resp, clock)
      case None => Stale
      case Some(date) =>
        if "max-stale" in reqCC && reqCC["max-stale"] == "" then Fresh
        else if Lifetime(resp, respCC, reqCC, date, clock) > AdjustedAge(clock.now - date, reqCC) then Fresh
        else Stale
  }

  /** `getFreshness`: the Go code's sequence of early returns and updates of `lifetime`
      and `currentAge`. */
  method GetFreshness(resp: Header, req: Header, clock: Clock) returns (v: Verdict)
    ensures v == Freshness(resp, req, clock)
  {
    var respCC := ParseCacheControl(resp);
    var reqCC := ParseCacheControl(req);
    if "no-cache" in reqCC {
      return Transparent;
    }
    if "no-cache" in respCC {
      return Stale;
    }
    if "only-if-cached" in reqCC {
      return Fresh;
    }
    var date := Date(resp, clock);
    if date.None? {
      return Stale;
    }
    var currentAge := clock.now - date.value;
    var lifetime := LifetimeOf(resp, respCC, reqCC, date.value, clock);
    if "min-fresh" in reqCC {
      var d := Seconds(reqCC["min-fresh"]);
      if d.Some? {
        currentAge := currentAge + d.value;
      }
    }
    if "max-stale" in reqCC {
      if reqCC["max-stale"] == "" {
        return Fresh;
      }
      var d := Seconds(reqCC["max-stale"]);
      if d.Some? {
        currentAge := currentAge - d.value;
      }
    }
    if lifetime > currentAge {
      return Fresh;
    }
    return Stale;
  }

  /** The part of getFreshness that settles `lifetime`: the response's max-age, else its
      Expires, then the request's max-age over either. */
  method LifetimeOf(resp: Header, respCC: Directives, reqCC: Directives, date: int, clock: Clock)
    returns (lifetime: int)
    ensures lifetime == Lifetime(resp, respCC, reqCC, date, clock)
  {
    lifetime := 0;
    if "max-age" in respCC {
      var d := Seconds(respCC["max-age"]);
      lifetime := if d.Some? then d.value else 0;
    } else {
      var expiresHeader := ExpiresHeader(resp);
      if expiresHeader != "" {
        var expires := clock.parseDate(expiresHeader);
        if expires.None? {
          lifetime := 0;
        } else {
          lifetime := expires.value - date;
        }
      }
    }
    if "max-age" in reqCC {
      var d := Seconds(reqCC["max-age"]);
      lifetime := if d.Some? then d.value else 0;
    }
  }

  /** Transparent exactly when the request says no-cache, whatever else is present. */
  lemma TransparentIff(resp: Header, respCC: Directives, reqCC: Directives, clock: Clock)
    ensures Classify(resp, respCC, reqCC, clock) == Transparent <==> "no-cache" in reqCC
  {
  }

  /** Without a request no-cache, a response no-cache forces revalidation. */
  lemma ResponseNoCacheStale(resp: Header, respCC: Directives, reqCC: Directives, clock: Clock)
    requires "no-cache" !in reqCC && "no-cache" in respCC
    ensures Classify(resp, respCC, reqCC, clock) == Stale
  {
  }

  /** Without no-cache on either side, only-if-cached serves the stored response. */
  lemma OnlyIfCachedFresh(resp: Header, respCC: Directives, reqCC: Directives, clock: Clock)
    requires "no-cache" !in reqCC && "no-cache" !in respCC && "only-if-cached" in reqCC
    ensures Classify(resp, respCC, reqCC, clock) == Fresh
  {
  }

  /** Otherwise a response without a usable Date must be revalidated. */
  lemma NoDateStale(resp: Header, respCC: Directives, reqCC: Directives, clock: Clock)
    requires "no-cache" !in reqCC && "no-cache" !in respCC && "only-if-cached" !in reqCC
    requires Get(resp, "date") == "" || clock.parseDate(Get(resp, "date")).None?
    ensures Classify(resp, respCC, reqCC, clock) == Stale
  {
  }

  /** With no request directives, a dated response is fresh exactly while its age is below
      the lifetime it grants. */
  lemma ResponseLifetimeWindow(resp: Header, respCC: Directives, clock: Clock)
    requires "no-cache" !in respCC && Date(resp, clock).Some?
    ensures var date := Date(resp, clock).value;
      Classify(resp, respCC, map[], clock) == Fresh
      <==> clock.now < date + ResponseLifetime(resp, respCC, date, clock)
  {
  }

  /** A response max-age is the lifetime (zero when it does not parse), and Expires is not
      consulted. */
  lemma MaxAgeOverridesExpires(resp: Header, respCC: Directives, date: int, clock: Clock, expires: string)
    requires "max-age" in respCC
    ensures ResponseLifetime(resp, respCC, date, clock) == SecondsOrZero(respCC["max-age"])
    ensures ResponseLifetime(Set(resp, "Expires", expires), respCC, date, clock)
         == ResponseLifetime(resp, respCC, date, clock)
  {
  }

  /** Without a response max-age, an Expires that parses gives the lifetime Expires minus
      Date, so a response with no request directives is fresh exactly until Expires. */
  lemma ExpiresWindow(resp: Header, respCC: Directives, clock: Clock, expires: int)
    requires "no-cache" !in respCC && "max-age" !in respCC && Date(resp, clock).Some?
    requires ExpiresHeader(resp) != "" && clock.parseDate(ExpiresHeader(resp)) == Some(expires)
    ensures Classify(resp, respCC, map[], clock) == Fresh <==> clock.now < expires
  {
  }

  /** A request max-age of `n` seconds replaces the response's lifetime, whatever the
      response's max-age or Expires say. */
  lemma RequestMaxAgeWindow(resp: Header, respCC: Directives, clock: Clock, n: nat)
    requires n <= MAX_SECONDS
    requires "no-cache" !in respCC && Date(resp, clock).Some?
    ensures Classify(resp, respCC, map["max-age" := Decimal(n)], clock) == Fresh
      <==> clock.now - Date(resp, clock).value < n
  {
    DecimalRoundTrip(n);
  }

  /** A valid min-fresh of `m` seconds asks for a response that stays fresh `m` seconds
      longer. */
  lemma MinFreshWindow(resp: Header, respCC: Directives, clock: Clock, m: nat)
    requires m <= MAX_SECONDS
    requires "no-cache" !in respCC && Date(resp, clock).Some?
    ensures var date := Date(resp, clock).value;
      Classify(resp, respCC, map["min-fresh" := Decimal(m)], clock) == Fresh
      <==> clock.now + m < date + ResponseLifetime(resp, respCC, date, clock)
  {
    DecimalRoundTrip(m);
  }

  /** A valid max-stale of `s` seconds accepts a response up to `s` seconds past its
      lifetime. */
  lemma MaxStaleWindow(resp: Header, respCC: Directives, clock: Clock, s: nat)
    requires s <= MAX_SECONDS
    requires "no-cache" !in respCC && Date(resp, clock).Some?
    ensures var date := Date(resp, clock).value;
      Classify(resp, respCC, map["max-stale" := Decimal(s)], clock) == Fresh
      <==> clock.now < date + ResponseLifetime(resp, respCC, date, clock) + s
  {
    DecimalRoundTrip(s);
  }

  /** A value-less max-stale accepts a dated response of any age. */
  lemma MaxStaleAnyAge(resp: Header, respCC: Directives, reqCC: Directives, clock: Clock)
    requires "no-cache" !in reqCC && "no-cache" !in respCC
    requires "max-stale" in reqCC && reqCC["max-stale"] == ""
    requires Date(resp, clock).Some?
    ensures Classify(resp, respCC, reqCC, clock) == Fresh
  {
  }

  /** Time only moves a response from fresh to stale: one that must be revalidated now
      must be revalidated later too. */
  lemma StaleStaysStale(resp: Header, req: Header, clock: Clock, later: int)
    requires clock.now <= later
    requires Freshness(resp, req, clock) == Stale
    ensures Freshness(resp, req, Clock(later, clock.parseDate)) == Stale
  {
  }
}

=== FILE: headers.dfy ===
/** HTTP header maps as Go's net/http keeps them: canonical name to the list of values,
    and the comma-separated-list flattening of section 4.2 of RFC 2616. */
module Headers {
  import opened Text

  /** `http.Header`: canonical header name to the values received for it, in order. */
  type Header = map<string, seq<string>>

  /** The bytes Go accepts in a header field name (the token characters of RFC 7230). */
  predicate IsTokenChar(c: char) {
    ('a' <= c <= 'z') || ('A' <= c <= 'Z') || ('0' <= c <= '9') || c in "!#$%&'*+-.^_`|~"
  }

  predicate AllTokenChars(s: string) {
    forall i :: 0 <= i < |s| ==> IsTokenChar(s[i])
  }

  function Upper(c: char): (u: char)
    ensures (u == '-') == (c == '-') && (IsTokenChar(c) ==> IsTokenChar(u))
  {
    if 'a' <= c <= 'z' then (c as int - 32) as char else c
  }

  function Lower(c: char): (l: char)
    ensures (l == '-') == (c == '-') && (IsTokenChar(c) ==> IsTokenChar(l))
  {
    if 'A' <= c <= 'Z' then (c as int + 32) as char else c
  }

  /** The letter case of position `i` of a canonical name: upper case at the start and
      after a dash, lower case elsewhere. */
  function CaseAt(name: string, i: nat): char
    requires i < |name|
  {
    if i == 0 || name[i - 1] == '-' then Upper(name[i]) else Lower(name[i])
  }

  /** `http.CanonicalHeaderKey`: a name with a byte outside the token characters (a space,
      say) is returned unchanged; any other is put in the canonical letter case. */
  function CanonicalKey(name: string): (k: string)
    ensures |k| == |name|
  {
    if AllTokenChars(name) then seq(|name|, i requires 0 <= i < |name| => CaseAt(name, i))
    else name
  }

  /** Canonicalising keeps a name's token characters and dashes where they are. */
  lemma CanonicalShape(name: string)
    ensures AllTokenChars(CanonicalKey(name)) == AllTokenChars(name)
    ensures forall i :: 0 <= i < |name| ==> (CanonicalKey(name)[i] == '-') == (name[i] == '-')
  {
    var k := CanonicalKey(name);
    if !AllTokenChars(name) {
      assert k == name;
    } else {
      assert forall i :: 0 <= i < |name| ==> k[i] == CaseAt(name, i);
    }
  }

  /** Canonicalising twice is canonicalising once. */
  lemma CanonicalIdempotent(name: string)
    ensures CanonicalKey(CanonicalKey(name)) == CanonicalKey(name)
  {
    var k := CanonicalKey(name);
    CanonicalShape(name);
    if AllTokenChars(name) {
      forall i | 0 <= i < |k| ensures CaseAt(k, i) == k[i] {
        assert k[i] == CaseAt(name, i);
      }
    }
  }

  /** A canonical name behind a canonical prefix ending in a dash stays as it is. */
  lemma CanonicalBehindPrefix(prefix: string, name: string)
    requires prefix != [] && prefix[|prefix| - 1] == '-'
    requires CanonicalKey(prefix) == prefix && AllTokenChars(prefix)
    ensures CanonicalKey(prefix + CanonicalKey(name)) == prefix + CanonicalKey(name)
  {
    var k := CanonicalKey(name);
    CanonicalShape(name);
    CanonicalIdempotent(name);
    if AllTokenChars(k) {
      CanonicalJoin(prefix, k);
    } else {
      var s := prefix + k;
      assert !AllTokenChars(s) by {
        var j :| 0 <= j < |k| && !IsTokenChar(k[j]);
        assert s[|prefix| + j] == k[j];
      }
    }
  }

  /** Two canonical token names joined after a dash form a canonical name. */
  lemma CanonicalJoin(prefix: string, k: string)
    requires prefix != [] && prefix[|prefix| - 1] == '-'
    requires CanonicalKey(prefix) == prefix && AllTokenChars(prefix)
    requires CanonicalKey(k) == k && AllTokenChars(k)
    ensures CanonicalKey(prefix + k) == prefix + k
  {
    var s := prefix + k;
    assert AllTokenChars(s);
    forall i | 0 <= i < |s| ensures CaseAt(s, i) == s[i] {
      if i < |prefix| {
        assert CaseAt(prefix, i) == prefix[i];
      } else if i == |prefix| {
        assert CaseAt(k, 0) == k[0];
      } else {
        assert CaseAt(k, i - |prefix|) == k[i - |prefix|];
      }
    }
  }

  /** A word of a letter followed by lower-case letters is canonicalised by raising its
      first letter. */
  lemma WordKey(s: string)
    requires s != [] && (('a' <= s[0] <= 'z') || ('A' <= s[0] <= 'Z'))
    requires forall i :: 0 < i < |s| ==> 'a' <= s[i] <= 'z'
    ensures AllTokenChars(s) && CanonicalKey(s) == [Upper(s[0])] + s[1..]
  {
    forall i | 0 <= i < |s| ensures IsTokenChar(s[i]) {
      assert ('a' <= s[i] <= 'z') || ('A' <= s[i] <= 'Z');
    }
    var k := CanonicalKey(s);
    forall i | 0 < i < |s| ensures k[i] == s[i] {
      assert CaseAt(s, i) == Lower(s[i]);
    }
  }

  /** All values under a name (`headers[http.CanonicalHeaderKey(name)]`). */
  function Values(h: Header, name: string): seq<string> {
    var k := CanonicalKey(name);
    if k in h then h[k] else []
  }

  /** `Header.Get`: the first value under the name, or "" when there is none. */
  function Get(h: Header, name: string): string {
    var vs := Values(h, name);
    if vs == [] then "" else vs[0]
  }

  /** `Header.Set`: replace every value under the name by the single `value`. */
  function Set(h: Header, name: string, value: string): (h': Header)
    ensures Get(h', name) == value
    ensures forall other :: CanonicalKey(other) != CanonicalKey(name) ==> Values(h', other) == Values(h, other)
  {
    h[CanonicalKey(name) := [value]]
  }

  /** Every field of one header line, split at commas and with its surrounding white space
      trimmed (the loop body of headerAllCommaSepValues). */
  function TrimFields(fields: seq<string>): (r: seq<string>)
    ensures |r| == |fields|
  {
    seq(|fields|, i requires 0 <= i < |fields| => TrimSpace(fields[i]))
  }

  /** The values of several header lines, each read as a comma-separated list, concatenated. */
  function CommaSepValues(lines: seq<string>): seq<string> {
    if lines == [] then []
    else CommaSepValues(lines[..|lines| - 1]) + TrimFields(Split(lines[|lines| - 1], ','))
  }

  /** Trim every field of a line in place (the inner loop of headerAllCommaSepValues). */
  method TrimEach(fields: array<string>)
    modifies fields
    ensures fields[..] == TrimFields(old(fields[..]))
  {
    for i := 0 to fields.Length
      invariant fields[..i] == TrimFields(old(fields[..i]))
      invariant fields[i..] == old(fields[i..])
    {
      fields[i] := TrimSpace(fields[i]);
      assert fields[..i + 1] == fields[..i] + [fields[i]];
    }
  }

  /** `headerAllCommaSepValues`: the comma-separated values of every line under `name`,
      each trimmed, in order. */
  method HeaderAllCommaSepValues(h: Header, name: string) returns (vals: seq<string>)
    ensures vals == CommaSepValues(Values(h, name))
  {
    var lines := Values(h, name);
    vals := [];
    for j := 0 to |lines|
      invariant vals == CommaSepValues(lines[..j])
    {
      var parts := Split(lines[j], ',');
      var fields := new string[|parts|](i requires 0 <= i < |parts| => parts[i]);
      assert fields[..] == parts;
      TrimEach(fields);
      vals := vals + fields[..];
      assert lines[..j + 1][..j] == lines[..j];
    }
    assert lines[..|lines|] == lines;
  }

  /** `x` is one of the trimmed comma-separated fields of `line`. */
  predicate InLine(line: string, x: string) {
    x in TrimFields(Split(line, ','))
  }

  /** A value is in the flattened list exactly when some line has a comma-separated field
      that trims to it. */
  lemma CommaSepValuesMembers(lines: seq<string>, x: string)
    ensures x in CommaSepValues(lines) <==> exists j :: 0 <= j < |lines| && InLine(lines[j], x)
  {
    if x in CommaSepValues(lines) {
      var j := FlattenedFrom(lines, x);
    }
    if exists j :: 0 <= j < |lines| && InLine(lines[j], x) {
      var j :| 0 <= j < |lines| && InLine(lines[j], x);
      FlattenedInto(lines, x, j);
    }
  }

  lemma {:induction false} FlattenedFrom(lines: seq<string>, x: string) returns (j: nat)
    requires x in CommaSepValues(lines)
    ensures j < |lines| && InLine(lines[j], x)
  {
    var n := |lines| - 1;
    assert CommaSepValues(lines) == CommaSepValues(lines[..n]) + TrimFields(Split(lines[n], ','));
    if x in CommaSepValues(lines[..n]) {
      j := FlattenedFrom(lines[..n], x);
      assert lines[..n][j] == lines[j];
    } else {
      j := n;
    }
  }

  lemma {:induction false} FlattenedInto(lines: seq<string>, x: string, j: nat)
    requires j < |lines| && InLine(lines[j], x)
    ensures x in CommaSepValues(lines)
  {
    var n := |lines| - 1;
    if j < n {
      assert lines[..n][j] == lines[j];
      FlattenedInto(lines[..n], x, j);
    }
  }

  /** No flattened value contains a comma. */
  lemma {:induction false} CommaSepValuesHaveNoComma(lines: seq<string>)
    ensures forall i :: 0 <= i < |CommaSepValues(lines)| ==> ',' !in CommaSepValues(lines)[i]
  {
    if lines != [] {
      CommaSepValuesHaveNoComma(lines[..|lines| - 1]);
      var parts := Split(lines[|lines| - 1], ',');
      SplitPiecesLackSep(lines[|lines| - 1], ',');
      forall i | 0 <= i < |parts| ensures ',' !in TrimFields(parts)[i] {
        TrimKeepsOut(parts[i], ' ', ',');
      }
    }
  }
}

=== FILE: hopbyhop.dfy ===
/** Hop-by-hop and end-to-end response headers (section 13.5.1 of RFC 2616, and the
    Connection options of section 6.1 of RFC 7230). */
module HopByHop {
  import opened Text
  import opened Headers

  /** The headers that are always hop-by-hop. */
  const FIXED_HOP_BY_HOP: set<string> := {
    "Connection", "Keep-Alive", "Proxy-Authenticate", "Proxy-Authorization",
    "Te", "Trailers", "Transfer-Encoding", "Upgrade"
  }

  /** The comma-separated options of the first Connection line. */
  function ConnectionTokens(h: Header): seq<string> {
    Split(Get(h, "connection"), ',')
  }

  /** The header name a non-blank Connection option declares hop-by-hop: the option
      trimmed of spaces, then canonicalised. */
  function OptionName(t: string): string {
    CanonicalKey(Trim(t, ' '))
  }

  /** The hop-by-hop names of a response: the fixed ones and every option named by
      Connection. */
  function HopByHopNames(h: Header): set<string> {
    FIXED_HOP_BY_HOP + Declared(ConnectionTokens(h))
  }

  /** The names the non-blank options among `tokens` declare. */
  function Declared(tokens: seq<string>): set<string> {
    set t | t in tokens && Trim(t, ' ') != "" :: OptionName(t)
  }

  /** One more option declares its own name, or nothing when it is blank. */
  lemma DeclaredAppend(tokens: seq<string>, t: string)
    ensures Declared(tokens + [t]) == Declared(tokens) + (if Trim(t, ' ') != "" then {OptionName(t)} else {})
  {
    var after := tokens + [t];
    forall x | x in Declared(after) ensures x in Declared(tokens) || (Trim(t, ' ') != "" && x == OptionName(t)) {
      var u :| u in after && Trim(u, ' ') != "" && OptionName(u) == x;
    }
  }

  /** The end-to-end names: every header of the response that is not hop-by-hop. */
  function EndToEnd(h: Header): (names: set<string>)
    ensures names <= h.Keys
  {
    set k | k in h && k !in HopByHopNames(h)
  }

  /** `getEndToEndHeaders`: first extends the hop-by-hop set with the Connection options,
      then collects the response's other header names, each once, in the map's order. */
  method GetEndToEndHeaders(h: Header) returns (names: seq<string>)
    ensures forall k :: k in names <==> k in EndToEnd(h)
    ensures forall i, j :: 0 <= i < j < |names| ==> names[i] != names[j]
    ensures Unpadded(h) ==> forall k :: k in names <==> k in EndToEndAsWritten(h)
  {
    var hopByHop := AddOptions(ConnectionTokens(h));
    assert hopByHop == HopByHopNames(h);
    names := NamesOutside(h, hopByHop);
    if Unpadded(h) {
      AsWrittenAgreesWithoutSpaces(h);
    }
  }

  /** The first loop of getEndToEndHeaders: the fixed names plus the name every non-blank
      option of `extras` declares. */
  method AddOptions(extras: seq<string>) returns (hopByHop: set<string>)
    ensures hopByHop == FIXED_HOP_BY_HOP + Declared(extras)
  {
    hopByHop := FIXED_HOP_BY_HOP;
    for i := 0 to |extras|
      invariant hopByHop == FIXED_HOP_BY_HOP + Declared(extras[..i])
    {
      assert extras[..i + 1] == extras[..i] + [extras[i]];
      DeclaredAppend(extras[..i], extras[i]);
      if Trim(extras[i], ' ') != "" {
        hopByHop := hopByHop + {CanonicalKey(Trim(extras[i], ' '))};
      }
    }
    assert extras[..|extras|] == extras;
  }

  /** The second loop of getEndToEndHeaders: every header name of `h` outside `excluded`,
      each once. */
  method NamesOutside(h: Header, excluded: set<string>) returns (names: seq<string>)
    ensures forall k :: k in names <==> k in h && k !in excluded
    ensures forall i, j :: 0 <= i < j < |names| ==> names[i] != names[j]
  {
    names := [];
    var rest := h.Keys;
    while rest != {}
      invariant rest <= h.Keys
      invariant forall k :: k in names <==> k in h && k !in rest && k !in excluded
      invariant forall i, j :: 0 <= i < j < |names| ==> names[i] != names[j]
      decreases |rest|
    {
      var k :| k in rest;
      rest := rest - {k};
      if k !in excluded {
        names := names + [k];
      }
    }
  }

  /** A header is end-to-end exactly when the response has it, it is not one of the fixed
      hop-by-hop names, and no non-blank Connection option names it. */
  lemma EndToEndIff(h: Header, k: string)
    ensures k in EndToEnd(h) <==>
      && k in h
      && k !in FIXED_HOP_BY_HOP
      && !(exists t :: t in ConnectionTokens(h) && Trim(t, ' ') != "" && OptionName(t) == k)
  {
  }

  /** Every option listed in Connection is kept out of the end-to-end names, however it
      is spaced around its comma. */
  lemma ConnectionOptionExcluded(h: Header, t: string)
    requires t in ConnectionTokens(h) && Trim(t, ' ') != ""
    ensures OptionName(t) !in EndToEnd(h)
  {
  }

  /** The hop-by-hop set the code builds: it canonicalises each option without trimming it
      first, so an option after ", " keeps its leading space and names no real header. */
  function HopByHopNamesAsWritten(h: Header): set<string> {
    FIXED_HOP_BY_HOP + set t | t in ConnectionTokens(h) && Trim(t, ' ') != "" :: CanonicalKey(t)
  }

  /** The end-to-end names as the code computes them. */
  function EndToEndAsWritten(h: Header): (names: set<string>)
    ensures names <= h.Keys && names !! FIXED_HOP_BY_HOP
  {
    set k | k in h && k !in HopByHopNamesAsWritten(h)
  }

  /** As the code has it, a header is end-to-end exactly when the response has it, it is
      not one of the fixed names, and no non-blank option canonicalises, untrimmed, to it. */
  lemma EndToEndAsWrittenIff(h: Header, k: string)
    ensures k in EndToEndAsWritten(h) <==>
      && k in h
      && k !in FIXED_HOP_BY_HOP
      && !(exists t :: t in ConnectionTokens(h) && Trim(t, ' ') != "" && CanonicalKey(t) == k)
  {
  }

  /** No Connection option carries spaces around it. */
  predicate Unpadded(h: Header) {
    forall t :: t in ConnectionTokens(h) ==> Trim(t, ' ') == t
  }

  /** When no option carries spaces around it, the code's set and the corrected one agree. */
  lemma AsWrittenAgreesWithoutSpaces(h: Header)
    requires Unpadded(h)
    ensures HopByHopNamesAsWritten(h) == HopByHopNames(h)
    ensures EndToEndAsWritten(h) == EndToEnd(h)
  {
  }

  /** An option written after a comma and a space, say ` Foo`, is canonicalised with its
      space and so names no header: unless another option or a fixed name covers it, the
      code keeps `Foo` end-to-end while the corrected set excludes it. */
  lemma SpacedOptionMissed(h: Header, name: string)
    requires [' '] + name in ConnectionTokens(h)
    requires name != [] && AllTokenChars(name) && CanonicalKey(name) == name && name in h
    requires name !in FIXED_HOP_BY_HOP
    requires forall t :: t in ConnectionTokens(h) ==> CanonicalKey(t) != name
    ensures name in EndToEndAsWritten(h) && name !in EndToEnd(h)
  {
    assert name !in HopByHopNamesAsWritten(h);
    SpacedOptionTrimmed(name);
    ConnectionOptionExcluded(h, [' '] + name);
  }

  /** Trimming the option ` Foo` gives back `Foo`. */
  lemma SpacedOptionTrimmed(name: string)
    requires name != [] && AllTokenChars(name)
    ensures Trim([' '] + name, ' ') == name
  {
    var t := [' '] + name;
    assert !IsTokenChar(' ');
    assert t[1..] == name;
    TrimAbsent(name, ' ');
  }

  // ---------------------------------------------------------------------------------
  // The worked example of the Connection finding: a response with
  // `Connection: close, Foo` and a `Foo` header. Each lemma below establishes one
  // premise of AsWrittenKeepsListedOption:
  //   - ExampleTokens: the Connection value splits into the options `close` and ` Foo`;
  //   - ConnectionKey: the name `connection` canonicalises to `Connection`;
  //   - ShortNotFixed, FooKey: `Foo` is canonical and is not a fixed hop-by-hop name;
  //   - PairNotNamed: neither option, canonicalised untrimmed as the code does, is `Foo`;
  //   - SpacedFoo: the option ` Foo` is `Foo` behind one space;
  //   - ExamplePremises gathers these as the premises of SpacedOptionMissed, which
  //     shows that the code keeps `Foo` as end-to-end while the trimmed reading drops it.
  // ---------------------------------------------------------------------------------

  /** Every fixed hop-by-hop name has at least seven characters, except Te; so a name of
      three to six characters, like the example's Foo, is not one of them. */
  lemma ShortNotFixed(k: string)
    requires 2 < |k| < 7
    ensures k !in FIXED_HOP_BY_HOP
  {
  }

  /** The response of the example: `Connection: close, Foo` and a `Foo` header. The
      lemmas up to AsWrittenKeepsListedOption establish, one small fact each, the premises
      of SpacedOptionMissed for it. */
  function Example(): Header {
    map["Connection" := ["close, Foo"], "Foo" := ["1"]]
  }

  /** The example's Connection header splits into `close` and ` Foo`. */
  lemma ExampleTokens(h: Header)
    requires h == Example()
    ensures ConnectionTokens(h) == ["close", " Foo"]
  {
    ConnectionKey();
    assert Get(h, "connection") == "close, Foo";
    assert "close, Foo" == "close" + [','] + " Foo";
    SplitAround("close", " Foo", ',');
    SplitWithout(" Foo", ',');
  }

  /** `Get(h, "connection")` looks up the key `Connection`. */
  lemma ConnectionKey()
    ensures CanonicalKey("connection") == "Connection"
  {
    var s := "connection";
    WordKey(s);
    assert [Upper(s[0])] + s[1..] == "Connection";
  }

  /** `Foo` is already canonical and is not a fixed hop-by-hop name. */
  lemma FooKey(name: string)
    requires name == "Foo"
    ensures AllTokenChars(name) && CanonicalKey(name) == name && name !in FIXED_HOP_BY_HOP
  {
    ShortNotFixed(name);
    WordKey(name);
    assert [Upper(name[0])] + name[1..] == name;
  }

  /** A two-element list none of whose elements canonicalises to `name`. */
  lemma PairNotNamed(ts: seq<string>, name: string)
    requires |ts| == 2 && CanonicalKey(ts[0]) != name && CanonicalKey(ts[1]) != name
    ensures forall t :: t in ts ==> CanonicalKey(t) != name
  {
    forall t | t in ts ensures CanonicalKey(t) != name {
      assert t == ts[0] || t == ts[1];
    }
  }

  /** The example meets every premise of SpacedOptionMissed for the name Foo. */
  lemma ExamplePremises(h: Header, name: string)
    requires h == Example() && name == "Foo"
    ensures [' '] + name in ConnectionTokens(h)
    ensures name != [] && AllTokenChars(name) && CanonicalKey(name) == name && name in h
    ensures forall t :: t in ConnectionTokens(h) ==> CanonicalKey(t) != name
  {
    var ts := ConnectionTokens(h);
    ExampleTokens(h);
    FooKey(name);
    assert |CanonicalKey(ts[0])| == 5 && |CanonicalKey(ts[1])| == 4;
    PairNotNamed(ts, name);
    SpacedFoo(name);
  }

  /** The second option of the example is `Foo` behind a space. */
  lemma SpacedFoo(name: string)
    requires name == "Foo"
    ensures [' '] + name == " Foo"
  {
  }

  /** `Connection: close, Foo` on a response that has a `Foo` header: the code treats Foo
      as end-to-end (and copies it onto a cached response after a 304), although the
      Connection header lists it as hop-by-hop. */
  lemma AsWrittenKeepsListedOption()
    ensures var h := Example();
      && " Foo" in ConnectionTokens(h)
      && "Foo" in EndToEndAsWritten(h)
      && "Foo" !in EndToEnd(h)
  {
    var h := Example();
    ExampleTokens(h);
    ExamplePremises(h, "Foo");
    FooKey("Foo");
    SpacedOptionMissed(h, "Foo");
  }
}

=== FILE: http.dfy ===
/** The requests and responses the cache handles, as values, and the way a response is
    kept in the store. */
module Http {
  import opened Wrappers
  import opened Headers

  /** One byte of a body. */
  newtype Byte = b: int | 0 <= b < 256

  /** A request: its method, its URL as text, and its headers. */
  datatype Request = Request(verb: string, url: string, header: Header)

  /** A response: status line text (`"200 OK"`), status code, headers and body. */
  datatype Response = Response(status: string, statusCode: int, header: Header, body: seq<Byte>)

  /** What a round trip gives: a response, or the transport's error. */
  datatype Fetched = Got(response: Response) | TransportError(message: string)

  /** A stored entry: the serialised form of a response, or bytes that do not read back
      as one. The wire format itself is not modelled. */
  datatype Blob = Dumped(response: Response) | Garbled(bytes: seq<Byte>)

  /** `http.ReadResponse` over a stored entry: fails on anything not written by Dump. */
  function Load(b: Blob): Option<Response> {
    match b
    case Dumped(r) => Some(r)
    case Garbled(_) => None
  }

  /** `httputil.DumpResponse`: a response serialised so that it reads back unchanged. */
  function Dump(r: Response): (b: Blob)
    ensures Load(b) == Some(r)
  {
    Dumped(r)
  }

  /** `cacheKey`: a request is stored under its URL. */
  function CacheKey(req: Request): (key: string)
    ensures key == req.url
  {
    req.url
  }

  /** Only GET and HEAD requests are answered from the cache. */
  predicate Cacheable(req: Request) {
    req.verb == "GET" || req.verb == "HEAD"
  }

  /** `newGatewayTimeoutResponse`: the response read from `HTTP/1.1 504 Gateway Timeout`
      followed by an empty header block, so no headers and no body. */
  function GatewayTimeout(): (r: Response)
    ensures r.statusCode == 504 && r.header == map[] && r.body == []
  {
    Response("504 Gateway Timeout", 504, map[], [])
  }
}

=== FILE: memorycache.dfy ===
/** The in-memory store of serialised responses. */
module MemoryStore {
  import opened Wrappers
  import opened Http

  /** `MemoryCache`: a map from cache key to the stored entry. */
  class MemoryCache {
    var items: map<string, Blob>

    /** `NewMemoryCache`: an empty store. */
    constructor()
      ensures items == map[]
    {
      items := map[];
    }

    /** The entry under `key`, when there is one. */
    method Get(key: string) returns (entry: Option<Blob>)
      ensures entry.Some? <==> key in items
      ensures entry.Some? ==> entry.value == items[key]
    {
      if key in items {
        entry := Some(items[key]);
      } else {
        entry := None;
      }
    }

    /** Store `entry` under `key`, replacing what was there. */
    method Set(key: string, entry: Blob)
      modifies this
      ensures items == old(items)[key := entry]
    {
      items := items[key := entry];
    }

    /** Remove whatever is stored under `key`. */
    method Delete(key: string)
      modifies this
      ensures items == old(items) - {key}
    {
      items := items - {key};
    }
  }
}

=== FILE: ranges.dfy ===
/** The Range handling of a cached response (a loose reading of section 2.1 of RFC 7233):
    which part of the stored body a `Range` request header selects. */
module Ranges {
  import opened Wrappers
  import opened Text

  /** What a Range header asks of a body: all of it, the half-open span `[start, end)`,
      an error (the cached response is then not used), an input the Go code panics on
      (a header without `=`, a form without `-`, a negative start), or a span that ends
      past the stored body. For that last one Go slices the buffer `ioutil.ReadAll`
      returned, which panics only past the buffer's capacity and below it serves bytes
      that are not in the stored body; the model does not know that capacity and
      excludes the case. */
  datatype Bounds = Whole | Span(start: int, end: int) | Invalid | Panic | PastEnd

  /** The bounds can be served from a body of the length they were computed for. */
  predicate Readable(b: Bounds) {
    !b.Panic? && !b.PastEnd?
  }

  predicate HasPrefix(s: string, c: char) {
    s != [] && s[0] == c
  }

  predicate HasSuffix(s: string, c: char) {
    s != [] && s[|s| - 1] == c
  }

  /** The first sub-range of a range set: the text before the first comma. */
  function FirstSubRange(ranges: string): string {
    if ',' in ranges then Split(ranges, ',')[0] else ranges
  }

  /** The span `[start, end)` of a body of `len` bytes, checked as the code checks it: an
      empty or backwards span is an error and a negative start a panic. An end past the
      body is `PastEnd`: Go panics there only past the read buffer's capacity, and below
      it serves bytes that are not in the stored body. */
  function Checked(start: int, end: int, len: nat): Bounds {
    if start >= end then Invalid
    else if start < 0 then Panic
    else if end > len then PastEnd
    else Span(start, end)
  }

  /** The bounds one range `value` (the text after `bytes=`) selects in a body of `len`
      bytes: `-N` is the last N bytes, `S-` everything from S, and `S-E` the bytes from S
      up to but excluding E, where a number that does not parse reads as 0 (or the
      64-bit bound it overflows). */
  function ValueBounds(value: string, len: nat): Bounds {
    var list := Split(value, '-');
    if HasPrefix(value, '-') then
      var (n, ok) := ParseInt64(list[1]);
      if !ok then Invalid else Checked(len - n, len, len)
    else if HasSuffix(value, '-') then
      var (start, ok) := ParseInt64(list[0]);
      if !ok then Invalid else Checked(start, len, len)
    else if |list| < 2 then Panic
    else Checked(ParseInt64(list[0]).0, ParseInt64(list[1]).0, len)
  }

  /** The bounds the Range header `raw` selects in a body of `len` bytes. No header, or a
      unit other than `bytes`, leaves the body whole; a header without `=` is a panic;
      only the first sub-range of a list is honoured. */
  function Requested(raw: string, len: nat): Bounds {
    if raw == "" then Whole
    else
      var tmp := Split(raw, '=');
      if |tmp| < 2 then Panic
      else if tmp[0] != "bytes" then Whole
      else ValueBounds(FirstSubRange(tmp[1]), len)
  }

  /** The range block of `CachedResponse`: the body a cached response is served with, or
      `None` when the range is not valid. */
  function Slice<T>(body: seq<T>, raw: string): (r: Option<seq<T>>)
    requires Readable(Requested(raw, |body|))
    ensures r.None? <==> Requested(raw, |body|) == Invalid
    ensures r.Some? ==> r.value != [] || body == []
    ensures r.Some? ==> exists i, j :: 0 <= i <= j <= |body| && r.value == body[i..j]
  {
    match Requested(raw, |body|)
    case Whole => assert body[0..|body|] == body; Some(body)
    case Span(start, end) => Some(body[start..end])
    case Invalid => None
  }

  /** A `bytes=` header: the text after `=` is the range set. */
  lemma BytesHeader(value: string, len: nat)
    requires '=' !in value
    ensures Requested("bytes=" + value, len) == ValueBounds(FirstSubRange(value), len)
  {
    SplitAround("bytes", value, '=');
    SplitWithout(value, '=');
    assert "bytes=" + value == "bytes" + ['='] + value;
  }

  /** `bytes=-N` selects the last N bytes; N = 0 is an error and N beyond the body a
      panic (the start is negative). */
  lemma SuffixRange(n: nat, len: nat)
    requires n <= MAX_INT64
    ensures Requested("bytes=-" + Decimal(n), len)
      == if n == 0 then Invalid else if n > len then Panic else Span(len - n, len)
  {
    var d := Decimal(n);
    var value := "-" + d;
    DecimalHasNo(n, '-');
    DecimalHasNo(n, '=');
    DecimalHasNo(n, ',');
    assert "bytes=-" + d == "bytes=" + value;
    BytesHeader(value, len);
    DashFront(d, value);
    SplitAround([], d, '-');
    SplitWithout(d, '-');
    DecimalRoundTrip(n);
  }

  /** A text behind `-` is that text after the separator and an empty piece. */
  lemma DashFront(d: string, value: string)
    requires value == "-" + d
    ensures value == [] + ['-'] + d && value[0] == '-'
  {
  }

  /** `bytes=S-` selects everything from byte S on; S at or past the end is an error. */
  lemma OpenRange(start: nat, len: nat)
    requires start <= MAX_INT64
    ensures Requested("bytes=" + Decimal(start) + "-", len) == if start >= len then Invalid else Span(start, len)
  {
    var d := Decimal(start);
    var value := d + "-";
    DecimalHasNo(start, '-');
    DecimalHasNo(start, '=');
    DecimalHasNo(start, ',');
    assert "bytes=" + d + "-" == "bytes=" + value;
    BytesHeader(value, len);
    assert value == d + ['-'] + [];
    SplitAround(d, [], '-');
    assert value[0] == d[0];
    DecimalRoundTrip(start);
  }

  /** `bytes=S-E` selects bytes S up to but excluding E: an empty or backwards span is an
      error, and an end past the body is `PastEnd`. */
  lemma ClosedRange(start: nat, end: nat, len: nat)
    requires start <= MAX_INT64 && end <= MAX_INT64
    ensures Requested("bytes=" + Decimal(start) + "-" + Decimal(end), len) == Checked(start, end, len)
  {
    var a := Decimal(start);
    var b := Decimal(end);
    var value := a + "-" + b;
    DecimalHasNo(start, '-');
    DecimalHasNo(start, '=');
    DecimalHasNo(start, ',');
    DecimalHasNo(end, '-');
    DecimalHasNo(end, '=');
    DecimalHasNo(end, ',');
    assert "bytes=" + a + "-" + b == "bytes=" + value;
    BytesHeader(value, len);
    assert value == a + ['-'] + b;
    SplitAround(a, b, '-');
    SplitWithout(b, '-');
    assert value[0] == a[0] && value[|value| - 1] == b[|b| - 1];
    DecimalRoundTrip(start);
    DecimalRoundTrip(end);
  }

  /** In the `S-E` form a start that is not a number silently reads as 0. */
  lemma UnparsedStartIsZero(start: string, end: nat, len: nat)
    requires end <= MAX_INT64
    requires start != [] && start[0] != '-' && ParseInteger(start).None?
    requires '-' !in start && '=' !in start && ',' !in start
    ensures Requested("bytes=" + start + "-" + Decimal(end), len) == Checked(0, end, len)
  {
    var b := Decimal(end);
    var value := start + "-" + b;
    DecimalHasNo(end, '-');
    DecimalHasNo(end, '=');
    DecimalHasNo(end, ',');
    assert "bytes=" + start + "-" + b == "bytes=" + value;
    BytesHeader(value, len);
    assert value == start + ['-'] + b;
    SplitAround(start, b, '-');
    SplitWithout(b, '-');
    assert value[0] == start[0] && value[|value| - 1] == b[|b| - 1];
    DecimalRoundTrip(end);
  }

  /** In the `-N` form a count that is not a number is an error. */
  lemma UnparsedSuffixFails(count: string, len: nat)
    requires ParseInteger(count).None? && '-' !in count && '=' !in count && ',' !in count
    ensures Requested("bytes=-" + count, len) == Invalid
  {
    var value := "-" + count;
    assert "bytes=-" + count == "bytes=" + value;
    BytesHeader(value, len);
    DashFront(count, value);
    SplitAround([], count, '-');
    SplitWithout(count, '-');
  }

  /** In the `S-` form a start that is not a number is an error. */
  lemma UnparsedOpenFails(start: string, len: nat)
    requires start != [] && ParseInteger(start).None?
    requires '-' !in start && '=' !in start && ',' !in start
    ensures Requested("bytes=" + start + "-", len) == Invalid
  {
    var value := start + "-";
    assert "bytes=" + start + "-" == "bytes=" + value;
    BytesHeader(value, len);
    assert value == start + ['-'] + [];
    SplitAround(start, [], '-');
    assert value[0] == start[0];
  }

  /** A unit other than `bytes` leaves the body whole, whatever follows it. */
  lemma OtherUnitWhole(unit: string, value: string, len: nat)
    requires unit != "bytes" && '=' !in unit
    ensures Requested(unit + "=" + value, len) == Whole
  {
    assert unit + "=" + value == unit + ['='] + value;
    SplitAround(unit, value, '=');
  }

  /** Of a list of ranges only the first is honoured. */
  lemma FirstSubRangeOnly(first: string, rest: string, len: nat)
    requires ',' !in first && '=' !in first && '=' !in rest
    ensures Requested("bytes=" + first + "," + rest, len) == Requested("bytes=" + first, len)
  {
    var value := first + "," + rest;
    assert "bytes=" + first + "," + rest == "bytes=" + value;
    BytesHeader(value, len);
    BytesHeader(first, len);
    assert value == first + [','] + rest;
    SplitAround(first, rest, ',');
  }

  /** `Range: bytes=2-5` on the body "abcdefghij" serves "cde": the end is exclusive. */
  lemma ClosedRangeExample(body: string, raw: string)
    requires body == "abcdefghij" && raw == "bytes=2-5"
    ensures Requested(raw, |body|) == Span(2, 5) && Slice(body, raw) == Some("cde")
  {
    ClosedRange(2, 5, 10);
    ExampleHeader();
    assert body[2..5] == "cde";
  }

  /** `Range: bytes=0-20` on a 10-byte body ends past the body, which the model excludes. */
  lemma PastEndExample(raw: string, len: nat)
    requires raw == "bytes=0-20" && len == 10
    ensures Requested(raw, len) == PastEnd && !Readable(Requested(raw, len))
  {
    ClosedRange(0, 20, len);
    PastEndHeader();
  }

  lemma PastEndHeader()
    ensures "bytes=" + Decimal(0) + "-" + Decimal(20) == "bytes=0-20"
  {
    assert Decimal(0) == "0" && Decimal(20) == "20";
  }

  lemma ExampleHeader()
    ensures "bytes=" + Decimal(2) + "-" + Decimal(5) == "bytes=2-5"
  {
    assert Decimal(2) == "2" && Decimal(5) == "5";
  }
}

=== FILE: revalidation.dfy ===
/** The steps of a cached round trip that work on single values: reading the stored
    entry for a request, marking it, adding validators to a request, merging a 304 Not
    Modified (section 4.3.4 of RFC 7234) and preparing a response for the store. */
module Revalidation {
  import opened Wrappers
  import opened Headers
  import opened CacheControl
  import opened HopByHop
  import opened Vary
  import opened Ranges
  import opened Http
  import MemoryStore

  /** What the store holds for a request: nothing, a usable response, or an entry that
      cannot be used (it does not read back, or the requested range is not valid). */
  datatype Cached = Miss | Hit(response: Response) | Unusable

  /** The request's Range header, "" when it has none. */
  function RangeHeader(h: Header): string {
    Get(h, "range")
  }

  /** The Range header of `req` selects nothing the Go code panics on and nothing past
      the stored body. */
  predicate Servable(items: map<string, Blob>, req: Request) {
    var key := CacheKey(req);
    key in items && Load(items[key]).Some? ==>
      Readable(Requested(RangeHeader(req.header), |Load(items[key]).value.body|))
  }

  /** `CachedResponse`: the stored response for `req`, its body cut to the requested
      range. */
  function Lookup(items: map<string, Blob>, req: Request): Cached
    requires Servable(items, req)
  {
    var key := CacheKey(req);
    if key !in items then Miss
    else match Load(items[key])
      case None => Unusable
      case Some(resp) =>
        match Slice(resp.body, RangeHeader(req.header))
        case None => Unusable
        case Some(body) => Hit(resp.(body := body))
  }

  /** `CachedResponse` over the store. */
  method CachedResponse(c: MemoryStore.MemoryCache, req: Request) returns (r: Cached)
    requires Servable(c.items, req)
    ensures r == Lookup(c.items, req)
  {
    var entry := c.Get(CacheKey(req));
    if entry.None? {
      return Miss;
    }
    var loaded := Load(entry.value);
    if loaded.None? {
      return Unusable;
    }
    var resp := loaded.value;
    var body := Slice(resp.body, RangeHeader(req.header));
    if body.None? {
      return Unusable;
    }
    return Hit(resp.(body := body.value));
  }

  /** A hit is the stored response with its status and headers, and a contiguous part of
      its body; the whole body when the request has no Range header. A miss is exactly a
      missing key. */
  lemma LookupHit(items: map<string, Blob>, req: Request)
    requires Servable(items, req)
    ensures Lookup(items, req).Miss? <==> CacheKey(req) !in items
    ensures Lookup(items, req).Hit? ==>
      var key := CacheKey(req);
      && key in items && Load(items[key]).Some?
      && var s := Load(items[key]).value;
      && var r := Lookup(items, req).response;
      && r.status == s.status && r.statusCode == s.statusCode && r.header == s.header
      && (exists i, j :: 0 <= i <= j <= |s.body| && r.body == s.body[i..j])
      && (RangeHeader(req.header) == "" ==> r == s)
  {
  }

  /** The header that marks a response served from the cache. */
  const X_FROM_CACHE: string := "X-From-Cache"

  /** The cached response, with `X-From-Cache: 1` when marking is on. */
  function Marked(resp: Response, mark: bool): (r: Response)
    ensures mark ==> Get(r.header, X_FROM_CACHE) == "1"
    ensures !mark ==> r == resp
    ensures mark ==> forall n :: CanonicalKey(n) != CanonicalKey(X_FROM_CACHE) ==>
      Values(r.header, n) == Values(resp.header, n)
    ensures r.body == resp.body && r.status == resp.status && r.statusCode == resp.statusCode
  {
    if mark then resp.(header := Set(resp.header, X_FROM_CACHE, "1")) else resp
  }

  function ETag(h: Header): string {
    Get(h, "etag")
  }

  function LastModified(h: Header): string {
    Get(h, "last-modified")
  }

  function IfNoneMatch(h: Header): string {
    Get(h, "if-none-match")
  }

  function IfModifiedSince(h: Header): string {
    Get(h, "if-modified-since")
  }

  /** The request sent to revalidate a stale entry whose headers are `cached`: it asks
      `If-None-Match` with the entry's ETag and `If-Modified-Since` with its Last-Modified,
      each only when the entry has that validator and the caller did not set the
      condition already. */
  function Validated(req: Request, cached: Header): Request {
    var h1 :=
      if ETag(cached) != "" && IfNoneMatch(req.header) == ""
      then WithIfNoneMatch(req.header, ETag(cached)) else req.header;
    var h2 :=
      if LastModified(cached) != "" && IfModifiedSince(h1) == ""
      then WithIfModifiedSince(h1, LastModified(cached)) else h1;
    req.(header := h2)
  }

  /** The validators as the code adds them: it asks whether the caller set them by
      looking at the request's own ETag and Last-Modified headers, which a request does
      not normally carry, so a condition the caller did set is overwritten. */
  function ValidatedAsWritten(req: Request, cached: Header): (r: Request)
    ensures r.verb == req.verb && r.url == req.url
    ensures IfNoneMatch(r.header)
      == if ETag(cached) != "" && ETag(req.header) == "" then ETag(cached) else IfNoneMatch(req.header)
    ensures IfModifiedSince(r.header)
      == if LastModified(cached) != "" && LastModified(req.header) == "" then LastModified(cached)
         else IfModifiedSince(req.header)
    ensures forall n ::
      CanonicalKey(n) != CanonicalKey("if-none-match") && CanonicalKey(n) != CanonicalKey("if-modified-since")
      ==> Values(r.header, n) == Values(req.header, n)
  {
    ConditionNames();
    var h1 :=
      if ETag(cached) != "" && ETag(req.header) == ""
      then Set(req.header, "if-none-match", ETag(cached)) else req.header;
    var h2 :=
      if LastModified(cached) != "" && LastModified(req.header) == ""
      then Set(h1, "if-modified-since", LastModified(cached)) else h1;
    req.(header := h2)
  }

  lemma ConditionNames()
    ensures CanonicalKey("if-none-match") != CanonicalKey("if-modified-since")
    ensures CanonicalKey("last-modified") != CanonicalKey("if-none-match")
  {
    assert CanonicalKey("last-modified")[0] == 'L';
    assert CanonicalKey("if-none-match")[0] == 'I';
  }

  /** The validators RoundTrip adds to the request for a stale entry. */
  method AddValidators(req: Request, cached: Header) returns (out: Request)
    ensures out == Validated(req, cached)
  {
    var h := req.header;
    var etag := ETag(cached);
    if etag != "" && IfNoneMatch(h) == "" {
      h := WithIfNoneMatch(h, etag);
    }
    var lastModified := LastModified(cached);
    if lastModified != "" && IfModifiedSince(h) == "" {
      h := WithIfModifiedSince(h, lastModified);
    }
    out := req.(header := h);
  }

  function WithIfNoneMatch(h: Header, v: string): Header {
    Set(h, "if-none-match", v)
  }

  function WithIfModifiedSince(h: Header, v: string): Header {
    Set(h, "if-modified-since", v)
  }

  /** Revalidation sets each condition to the caller's own value when there is one, and
      otherwise to the entry's validator (nothing when the entry has none). */
  lemma ValidatorsChosen(req: Request, cached: Header)
    ensures var out := Validated(req, cached).header;
      && IfNoneMatch(out) == (if IfNoneMatch(req.header) != "" then IfNoneMatch(req.header) else ETag(cached))
      && IfModifiedSince(out) == (if IfModifiedSince(req.header) != "" then IfModifiedSince(req.header) else LastModified(cached))
  {
    ConditionNames();
  }

  /** Revalidation changes only the two conditional headers of the request. */
  lemma ValidatorsOnly(req: Request, cached: Header, name: string)
    requires CanonicalKey(name) != CanonicalKey("if-none-match")
    requires CanonicalKey(name) != CanonicalKey("if-modified-since")
    ensures var out := Validated(req, cached);
      && out.verb == req.verb && out.url == req.url
      && Values(out.header, name) == Values(req.header, name)
  {
  }

  /** A caller that sent `If-None-Match` itself (and, as usual, no ETag header) has it
      replaced by the entry's differing ETag in the code, and kept by the corrected
      revalidation. */
  lemma AsWrittenOverwritesCondition(req: Request, cached: Header)
    requires ETag(cached) != "" && ETag(req.header) == ""
    requires IfNoneMatch(req.header) != "" && IfNoneMatch(req.header) != ETag(cached)
    ensures IfNoneMatch(ValidatedAsWritten(req, cached).header) == ETag(cached)
    ensures IfNoneMatch(Validated(req, cached).header) == IfNoneMatch(req.header)
  {
    ConditionNames();
  }

  /** When the caller set neither condition nor carries ETag or Last-Modified headers,
      the code and the corrected revalidation send the same request. */
  lemma AsWrittenAgreesWhenUnset(req: Request, cached: Header)
    requires IfNoneMatch(req.header) == "" && IfModifiedSince(req.header) == ""
    requires ETag(req.header) == "" && LastModified(req.header) == ""
    ensures ValidatedAsWritten(req, cached) == Validated(req, cached)
  {
    ConditionNames();
  }

  /** `fields` of `base` replaced by those of `src`. */
  function Overlay(base: Header, src: Header, fields: set<string>): Header
    requires fields <= src.Keys
  {
    map k | k in base.Keys + fields :: if k in fields then src[k] else base[k]
  }

  /** The cached response refreshed by a 304 Not Modified `notModified`: the 304's
      end-to-end headers replace the cached ones, the status becomes 200 OK, and the
      cached body stays. */
  function Merge(cached: Response, notModified: Response): Response {
    var fields := EndToEnd(notModified.header);
    Response("200 OK", 200, Overlay(cached.header, notModified.header, fields), cached.body)
  }

  /** The 304 merge as the code performs it: the headers copied are the end-to-end names
      as the code computes them. */
  function MergeAsWritten(cached: Response, notModified: Response): (r: Response)
    ensures r.status == "200 OK" && r.statusCode == 200 && r.body == cached.body
    ensures r.header.Keys == cached.header.Keys + EndToEndAsWritten(notModified.header)
    ensures forall k :: k in EndToEndAsWritten(notModified.header) ==> r.header[k] == notModified.header[k]
    ensures forall k :: k in cached.header && k !in EndToEndAsWritten(notModified.header) ==>
      r.header[k] == cached.header[k]
  {
    var fields := EndToEndAsWritten(notModified.header);
    Response("200 OK", 200, Overlay(cached.header, notModified.header, fields), cached.body)
  }

  /** When no Connection option of the 304 is padded with spaces, the code's merge and the
      corrected one give the same response. */
  lemma MergeAgreesWithoutSpaces(cached: Response, notModified: Response)
    requires Unpadded(notModified.header)
    ensures MergeAsWritten(cached, notModified) == Merge(cached, notModified)
  {
    AsWrittenAgreesWithoutSpaces(notModified.header);
  }

  /** A 304 with `Connection: close, Foo` and a `Foo` header: the code copies `Foo` onto a
      cached response that had none, the corrected merge does not. */
  lemma AsWrittenMergeCopiesListedOption(cached: Response, notModified: Response, name: string)
    requires notModified.header == Example() && name == "Foo" && name !in cached.header
    ensures name in MergeAsWritten(cached, notModified).header
    ensures name !in Merge(cached, notModified).header
  {
    AsWrittenKeepsListedOption();
  }

  /** After a 304 a header reads as the 304 has it when it is end-to-end there, and as the
      cached response has it otherwise; the body is the cached one. */
  lemma MergeFields(cached: Response, notModified: Response, k: string)
    ensures var m := Merge(cached, notModified);
      && m.statusCode == 200 && m.body == cached.body
      && (k in m.header <==> k in cached.header || k in EndToEnd(notModified.header))
      && (k in EndToEnd(notModified.header) ==> m.header[k] == notModified.header[k])
      && (k in cached.header && k !in EndToEnd(notModified.header) ==> m.header[k] == cached.header[k])
  {
  }

  /** A new ETag carried by a 304 replaces the cached one, unless the 304's Connection
      header lists ETag. */
  lemma MergeRefreshesETag(cached: Response, notModified: Response)
    requires ETagKey() in notModified.header
    requires ETagKey() !in Declared(ConnectionTokens(notModified.header))
    ensures ETag(Merge(cached, notModified).header) == ETag(notModified.header)
    ensures Merge(cached, notModified).body == cached.body
  {
    ETagName();
  }

  /** The canonical name of the ETag header (a helper for the lemma above). */
  function ETagKey(): string {
    "Etag"
  }

  lemma ETagName()
    ensures CanonicalKey("etag") == ETagKey() && ETagKey() !in FIXED_HOP_BY_HOP
  {
    var k := CanonicalKey("etag");
    assert k[0] == 'E' && k[1] == 't' && k[2] == 'a' && k[3] == 'g';
  }

  /** The 304 merge of RoundTrip: copies the 304's end-to-end headers onto the cached
      response, then forces the status to 200. */
  method MergeNotModified(cached: Response, notModified: Response) returns (merged: Response)
    ensures merged == Merge(cached, notModified)
    ensures Unpadded(notModified.header) ==> merged == MergeAsWritten(cached, notModified)
  {
    var names := GetEndToEndHeaders(notModified.header);
    forall j | 0 <= j < |names| ensures names[j] in notModified.header {
      assert names[j] in EndToEnd(notModified.header);
    }
    var h := CopyFields(cached.header, notModified.header, names);
    assert Elements(names) == EndToEnd(notModified.header);
    merged := Response("200 OK", 200, h, cached.body);
    if Unpadded(notModified.header) {
      MergeAgreesWithoutSpaces(cached, notModified);
    }
  }

  /** `names` copied from `src` onto `base` one after another. */
  function CopyAll(base: Header, src: Header, names: seq<string>): Header
    requires forall j :: 0 <= j < |names| ==> names[j] in src
  {
    if names == [] then base
    else
      var n := |names| - 1;
      CopyAll(base, src, names[..n])[names[n] := src[names[n]]]
  }

  /** Copying the names one by one is overlaying the set of them, in any order. */
  lemma {:induction false} CopyAllOverlay(base: Header, src: Header, names: seq<string>)
    requires forall j :: 0 <= j < |names| ==> names[j] in src
    ensures CopyAll(base, src, names) == Overlay(base, src, Elements(names))
  {
    if names != [] {
      var n := |names| - 1;
      CopyAllOverlay(base, src, names[..n]);
      ElementsAppend(names);
      OverlayAdd(base, src, Elements(names[..n]), names[n]);
    }
  }

  /** The names of a sequence, as a set. */
  function Elements(names: seq<string>): set<string> {
    set x | x in names
  }

  lemma ElementsAppend(names: seq<string>)
    requires names != []
    ensures Elements(names) == Elements(names[..|names| - 1]) + {names[|names| - 1]}
  {
    assert names == names[..|names| - 1] + [names[|names| - 1]];
  }

  lemma OverlayAdd(base: Header, src: Header, fields: set<string>, k: string)
    requires fields <= src.Keys && k in src
    ensures Overlay(base, src, fields)[k := src[k]] == Overlay(base, src, fields + {k})
  {
    var l := Overlay(base, src, fields)[k := src[k]];
    var r := Overlay(base, src, fields + {k});
    assert l.Keys == r.Keys;
    forall x | x in l ensures l[x] == r[x] {
    }
  }

  /** The copying loop: each of `names` takes its values from `src`. */
  method CopyFields(base: Header, src: Header, names: seq<string>) returns (h: Header)
    requires forall j :: 0 <= j < |names| ==> names[j] in src
    ensures h == Overlay(base, src, Elements(names))
  {
    h := base;
    for i := 0 to |names|
      invariant h == CopyAll(base, src, names[..i])
    {
      assert names[..i + 1][..i] == names[..i];
      h := h[names[i] := src[names[i]]];
    }
    assert names[..|names|] == names;
    CopyAllOverlay(base, src, names);
  }

  /** The response as RoundTrip returns it after the store step: with the request's Vary
      values recorded when it may be stored. */
  function Finish(req: Request, resp: Response): Response {
    if CanStore(Of(req.header), Of(resp.header))
    then resp.(header := Snapshot(resp.header, req.header)) else resp
  }

  /** The store after the store step: the finished response under `key` when neither side
      says no-store, and nothing under `key` otherwise. */
  function Stored(items: map<string, Blob>, key: string, req: Request, resp: Response): (after: map<string, Blob>)
    ensures key in after <==> CanStore(Of(req.header), Of(resp.header))
    ensures key in after ==> Load(after[key]) == Some(Finish(req, resp))
    ensures forall k | k in items && k != key :: k in after && after[k] == items[k]
    ensures after.Keys <= items.Keys + {key}
  {
    if CanStore(Of(req.header), Of(resp.header)) then items[key := Dump(Finish(req, resp))]
    else items - {key}
  }

  /** Whatever was stored under the key before the store step does not matter, so the
      deletion RoundTrip makes on a non-200 answer is always overridden. */
  lemma StoredForgetsKey(items: map<string, Blob>, key: string, req: Request, resp: Response)
    ensures Stored(items - {key}, key, req, resp) == Stored(items, key, req, resp)
  {
  }

  /** A stored response is found again by the same request (without a Range header), and
      its Vary snapshot matches that request. */
  lemma StoreThenLookup(items: map<string, Blob>, req: Request, resp: Response)
    requires CanStore(Of(req.header), Of(resp.header))
    requires RangeHeader(req.header) == "" && NoVariedHeaders(resp.header)
    ensures var after := Stored(items, CacheKey(req), req, resp);
      && Servable(after, req)
      && Lookup(after, req) == Hit(Finish(req, resp))
      && Matches(Finish(req, resp).header, req.header)
  {
    var f := Finish(req, resp);
    assert f.(body := f.body) == f;
    SnapshotMatches(resp.header, req.header);
  }
}


=== FILE: text.dfy ===
/** The few pieces of Go's `strings` and `strconv` packages the cache relies on, over
    strings as sequences of characters. */
module Text {
  import opened Wrappers

  /** `strings.Split(s, sep)` for a one-character separator: the pieces between the
      separators, never an empty list (`Split("", c) == [""]`). */
  function Split(s: string, sep: char): (parts: seq<string>)
    ensures |parts| >= 1
    ensures (sep in s) == (|parts| > 1)
    decreases |s|
  {
    if s == [] then [""]
    else
      var rest := Split(s[1..], sep);
      assert s == [s[0]] + s[1..];
      if s[0] == sep then [""] + rest
      else [[s[0]] + rest[0]] + rest[1..]
  }

  /** No piece holds the separator. */
  lemma {:induction false} SplitPiecesLackSep(s: string, sep: char)
    ensures forall i :: 0 <= i < |Split(s, sep)| ==> sep !in Split(s, sep)[i]
  {
    if s != [] {
      SplitPiecesLackSep(s[1..], sep);
      var rest := Split(s[1..], sep);
      assert s == [s[0]] + s[1..];
      if s[0] != sep {
        assert Split(s, sep) == [[s[0]] + rest[0]] + rest[1..];
      }
    }
  }

  /** The inverse of Split: the pieces glued back together with the separator. */
  function Join(parts: seq<string>, sep: char): string
  {
    if parts == [] then ""
    else if |parts| == 1 then parts[0]
    else parts[0] + [sep] + Join(parts[1..], sep)
  }

  lemma {:induction false} JoinSplit(s: string, sep: char)
    ensures Join(Split(s, sep), sep) == s
  {
    if s != [] {
      var rest := Split(s[1..], sep);
      JoinSplit(s[1..], sep);
      if s[0] == sep {
        assert Split(s, sep) == [""] + rest;
        assert ([""] + rest)[1..] == rest;
      } else {
        var parts := [[s[0]] + rest[0]] + rest[1..];
        assert Split(s, sep) == parts;
        if |rest| > 1 {
          assert parts[1..] == rest[1..];
        }
      }
    }
  }

  /** Index of the first `c` in `s`, or `|s|` when there is none. */
  function IndexOf(s: string, c: char): (i: nat)
    ensures i <= |s|
    ensures c !in s[..i]
    ensures i < |s| ==> s[i] == c
    ensures (i == |s|) == (c !in s)
  {
    if s == [] then 0
    else if s[0] == c then 0
    else
      assert s == [s[0]] + s[1..];
      assert s[..1 + IndexOf(s[1..], c)] == [s[0]] + s[1..][..IndexOf(s[1..], c)];
      1 + IndexOf(s[1..], c)
  }

  lemma {:induction false} SplitWithout(s: string, sep: char)
    requires sep !in s
    ensures Split(s, sep) == [s]
  {
    if s != [] {
      SplitWithout(s[1..], sep);
      assert s == [s[0]] + s[1..];
    }
  }

  /** The first piece is the text before the first separator, and the remaining pieces
      are those of the text after it. */
  lemma SplitFirst(s: string, sep: char)
    ensures Split(s, sep)[0] == s[..IndexOf(s, sep)]
    ensures IndexOf(s, sep) < |s| ==> Split(s, sep)[1..] == Split(s[IndexOf(s, sep) + 1..], sep)
  {
    SplitHead(s, sep);
    if IndexOf(s, sep) < |s| {
      SplitTail(s, sep);
    }
  }

  lemma {:induction false} SplitHead(s: string, sep: char)
    ensures Split(s, sep)[0] == s[..IndexOf(s, sep)]
  {
    if s != [] && s[0] != sep {
      var rest := Split(s[1..], sep);
      SplitHead(s[1..], sep);
      assert s == [s[0]] + s[1..];
      assert Split(s, sep)[0] == [s[0]] + rest[0];
      assert IndexOf(s, sep) == 1 + IndexOf(s[1..], sep);
      assert s[..IndexOf(s, sep)] == [s[0]] + s[1..][..IndexOf(s[1..], sep)];
    }
  }

  lemma {:induction false} SplitTail(s: string, sep: char)
    requires IndexOf(s, sep) < |s|
    ensures Split(s, sep)[1..] == Split(s[IndexOf(s, sep) + 1..], sep)
  {
    assert s == [s[0]] + s[1..];
    if s[0] == sep {
      assert Split(s, sep) == [""] + Split(s[1..], sep);
    } else {
      var rest := Split(s[1..], sep);
      var i := IndexOf(s[1..], sep);
      SplitTail(s[1..], sep);
      assert Split(s, sep) == [[s[0]] + rest[0]] + rest[1..];
      assert IndexOf(s, sep) == 1 + i;
      assert s[1..][i + 1..] == s[i + 2..];
    }
  }

  lemma {:induction false} IndexOfAt(s: string, c: char, i: nat)
    requires i < |s| && s[i] == c && c !in s[..i]
    ensures IndexOf(s, c) == i
  {
    if i > 0 {
      assert s[0] == s[..i][0];
      assert s[1..][..i - 1] == s[..i][1..];
      IndexOfAt(s[1..], c, i - 1);
    }
  }

  lemma SplitAround(a: string, b: string, sep: char)
    requires sep !in a
    ensures Split(a + [sep] + b, sep) == [a] + Split(b, sep)
  {
    var s := a + [sep] + b;
    SplitFirst(s, sep);
    assert s[..|a|] == a;
    IndexOfAt(s, sep, |a|);
    assert s[|a| + 1..] == b;
    assert Split(s, sep) == [Split(s, sep)[0]] + Split(s, sep)[1..];
  }

  /** Go's strings.TrimLeft: drop the leading characters that are in `cut`. */
  function TrimLeft(s: string, cut: set<char>): (r: string)
    ensures |r| <= |s|
    decreases |s|
  {
    if s != [] && s[0] in cut then TrimLeft(s[1..], cut) else s
  }

  /** Go's strings.TrimRight: drop the trailing characters that are in `cut`. */
  function TrimRight(s: string, cut: set<char>): (r: string)
    ensures |r| <= |s|
    decreases |s|
  {
    if s != [] && s[|s| - 1] in cut then TrimRight(s[..|s| - 1], cut) else s
  }

  lemma {:induction false} TrimLeftSuffix(s: string, cut: set<char>)
    ensures TrimLeft(s, cut) == s[|s| - |TrimLeft(s, cut)|..]
  {
    if s != [] && s[0] in cut {
      TrimLeftSuffix(s[1..], cut);
    }
  }

  lemma {:induction false} TrimRightPrefix(s: string, cut: set<char>)
    ensures TrimRight(s, cut) == s[..|TrimRight(s, cut)|]
  {
    if s != [] && s[|s| - 1] in cut {
      TrimRightPrefix(s[..|s| - 1], cut);
    }
  }

  /** strings.Trim(s, cutset) for a one-character cutset. */
  function Trim(s: string, c: char): string {
    TrimRight(TrimLeft(s, {c}), {c})
  }

  /** The characters Go's unicode.IsSpace accepts. */
  const SPACE: set<char> := {
    ' ', '\t', '\n', '\U{0B}', '\U{0C}', '\r', '\U{85}', '\U{A0}', '\U{1680}',
    '\U{2000}', '\U{2001}', '\U{2002}', '\U{2003}', '\U{2004}', '\U{2005}', '\U{2006}',
    '\U{2007}', '\U{2008}', '\U{2009}', '\U{200A}',
    '\U{2028}', '\U{2029}', '\U{202F}', '\U{205F}', '\U{3000}'
  }

  /** strings.TrimSpace. */
  function TrimSpace(s: string): string {
    TrimRight(TrimLeft(s, SPACE), SPACE)
  }

  /** Trimming only removes characters, so a character absent from `s` stays absent. */
  lemma TrimKeepsOut(s: string, c: char, d: char)
    requires d !in s
    ensures d !in Trim(s, c) && d !in TrimSpace(s)
  {
    TrimSidesKeepOut(s, {c}, d);
    TrimSidesKeepOut(s, SPACE, d);
  }

  lemma TrimSidesKeepOut(s: string, cut: set<char>, d: char)
    requires d !in s
    ensures d !in TrimRight(TrimLeft(s, cut), cut)
  {
    var l := TrimLeft(s, cut);
    TrimLeftSuffix(s, cut);
    TrimRightPrefix(l, cut);
    assert d !in l;
  }

  /** Trimming `c` keeps a character other than `c` that `s` holds. */
  lemma TrimKeepsEdge(s: string, c: char, d: char)
    requires d in s && d != c
    ensures d in Trim(s, c)
  {
    TrimLeftKeeps(s, {c}, d);
    TrimRightKeeps(TrimLeft(s, {c}), {c}, d);
  }

  lemma {:induction false} TrimLeftKeeps(s: string, cut: set<char>, d: char)
    requires d in s && d !in cut
    ensures d in TrimLeft(s, cut)
  {
    if s[0] in cut {
      assert d in s[1..];
      TrimLeftKeeps(s[1..], cut, d);
    }
  }

  lemma {:induction false} TrimRightKeeps(s: string, cut: set<char>, d: char)
    requires d in s && d !in cut
    ensures d in TrimRight(s, cut)
  {
    if s[|s| - 1] in cut {
      assert d in s[..|s| - 1];
      TrimRightKeeps(s[..|s| - 1], cut, d);
    }
  }

  lemma TrimAbsent(s: string, c: char)
    requires c !in s
    ensures Trim(s, c) == s
  {
  }

  predicate IsDigit(c: char) {
    '0' <= c <= '9'
  }

  predicate AllDigits(s: string) {
    forall i :: 0 <= i < |s| ==> IsDigit(s[i])
  }

  /** The value of a string of decimal digits. */
  function DigitsValue(s: string): nat
    requires AllDigits(s)
  {
    if s == [] then 0
    else DigitsValue(s[..|s| - 1]) * 10 + (s[|s| - 1] as int - '0' as int)
  }

  /** A decimal integer with an optional sign and at least one digit, as strconv.ParseInt
      reads it in base 10 (before any range check). */
  function ParseInteger(s: string): Option<int> {
    if s != [] && (s[0] == '+' || s[0] == '-') then
      var digits := s[1..];
      if digits != [] && AllDigits(digits) then
        var v: int := DigitsValue(digits);
        Some(if s[0] == '-' then -v else v)
      else None
    else if s != [] && AllDigits(s) then Some(DigitsValue(s))
    else None
  }

  const MAX_INT64: int := 0x7FFF_FFFF_FFFF_FFFF
  const MIN_INT64: int := -0x8000_0000_0000_0000

  /** strconv.ParseInt(s, 10, 64): the value and whether it parsed. A syntax error gives 0,
      a value out of the 64-bit range gives the bound on its side, both with `false`. */
  function ParseInt64(s: string): (int, bool) {
    match ParseInteger(s)
    case None => (0, false)
    case Some(n) =>
      if n > MAX_INT64 then (MAX_INT64, false)
      else if n < MIN_INT64 then (MIN_INT64, false)
      else (n, true)
  }

  /** The decimal digits of `n`, as strconv.Itoa writes them. */
  function Decimal(n: nat): (s: string)
    ensures s != [] && AllDigits(s)
  {
    if n < 10 then ["0123456789"[n]]
    else Decimal(n / 10) + ["0123456789"[n % 10]]
  }

  /** Printing a number and parsing it back gives the number again. */
  lemma {:induction false} DecimalRoundTrip(n: nat)
    ensures ParseInteger(Decimal(n)) == Some(n)
    ensures n <= MAX_INT64 ==> ParseInt64(Decimal(n)) == (n, true)
  {
    DecimalValue(n);
  }

  lemma {:induction false} DecimalValue(n: nat)
    ensures DigitsValue(Decimal(n)) == n
  {
    var s := Decimal(n);
    if n >= 10 {
      DecimalValue(n / 10);
      assert s[..|s| - 1] == Decimal(n / 10);
    }
  }

  /** A printed number holds none of the separators the range syntax uses. */
  lemma DecimalHasNo(n: nat, c: char)
    requires !IsDigit(c)
    ensures c !in Decimal(n)
  {
  }
}

=== FILE: transport.dfy ===
/** The caching transport: a RoundTrip that answers from the store when it may, revalidates
    stale entries, and keeps the store up to date. */
module Caching {
  import opened Wrappers
  import opened Headers
  import opened CacheControl
  import opened Freshness
  import opened Vary
  import opened Http
  import opened Revalidation
  import opened MemoryStore

  /** The request says `only-if-cached`. */
  predicate OnlyIfCached(h: Header) {
    "only-if-cached" in Of(h)
  }

  /** What RoundTrip makes of a usable entry `cached`: Transparent when the request does
      not match its Vary snapshot, its freshness otherwise. */
  function HitVerdict(cached: Response, req: Request, clock: Clock): Verdict {
    if Matches(cached.header, req.header) then Freshness.Freshness(cached.header, req.header, clock)
    else Transparent
  }

  /** The request RoundTrip forwards when it holds `cached`: with validators when the
      entry is stale. */
  function Forwarded(cached: Response, req: Request, clock: Clock): Request {
    if HitVerdict(cached, req, clock) == Stale then Validated(req, cached.header) else req
  }

  /** The request the code forwards when it holds `cached`: its validators are added as
      the code adds them. */
  function ForwardedAsWritten(cached: Response, req: Request, clock: Clock): (r: Request)
    ensures r.verb == req.verb && r.url == req.url
    ensures HitVerdict(cached, req, clock) == Stale ==> r == ValidatedAsWritten(req, cached.header)
    ensures HitVerdict(cached, req, clock) != Stale ==> r == req
  {
    if HitVerdict(cached, req, clock) == Stale then ValidatedAsWritten(req, cached.header) else req
  }

  /** A caller that set no condition and carries no ETag or Last-Modified header is
      forwarded the same request by the code and by the corrected RoundTrip. */
  lemma ForwardedAgreesWhenUnset(cached: Response, req: Request, clock: Clock)
    requires IfNoneMatch(req.header) == "" && IfModifiedSince(req.header) == ""
    requires ETag(req.header) == "" && LastModified(req.header) == ""
    ensures ForwardedAsWritten(cached, req, clock) == Forwarded(cached, req, clock)
  {
    AsWrittenAgreesWhenUnset(req, cached.header);
  }

  /** A stale entry with an ETag, and a caller that sent its own differing `If-None-Match`
      (and no ETag header): the code forwards the entry's ETag, the corrected RoundTrip
      the caller's condition. */
  lemma ForwardedAsWrittenOverwrites(cached: Response, req: Request, clock: Clock)
    requires HitVerdict(cached, req, clock) == Stale
    requires ETag(cached.header) != "" && ETag(req.header) == ""
    requires IfNoneMatch(req.header) != "" && IfNoneMatch(req.header) != ETag(cached.header)
    ensures IfNoneMatch(ForwardedAsWritten(cached, req, clock).header) == ETag(cached.header)
    ensures IfNoneMatch(Forwarded(cached, req, clock).header) == IfNoneMatch(req.header)
  {
    AsWrittenOverwritesCondition(req, cached.header);
  }

  /** `Transport`: the store it keeps and whether it marks responses served from it. The
      transport it forwards to is a parameter of RoundTrip. */
  class Transport {
    const cache: MemoryCache
    const markCachedResponses: bool

    constructor(c: MemoryCache, mark: bool)
      ensures cache == c && markCachedResponses == mark
    {
      cache := c;
      markCachedResponses := mark;
    }

    /** The last step of RoundTrip: record the Vary values and store the response when
        neither side says no-store, delete the key otherwise. */
    method Store(key: string, req: Request, resp: Response) returns (final: Response)
      modifies cache
      ensures final == Finish(req, resp)
      ensures cache.items == Stored(old(cache.items), key, req, resp)
    {
      var reqCacheControl := ParseCacheControl(req.header);
      var respCacheControl := ParseCacheControl(resp.header);
      if CanStore(reqCacheControl, respCacheControl) {
        var h := RecordVary(resp.header, req.header);
        final := resp.(header := h);
        cache.Set(key, Dump(final));
      } else {
        final := resp;
        cache.Delete(key);
      }
    }

    /** RoundTrip for a request that found no usable entry: a 504 without any network
        traffic under only-if-cached, else the transport's answer. */
    method ServeMiss(req: Request, upstream: Request -> Fetched) returns (result: Fetched, sent: Option<Request>)
      modifies cache
      ensures OnlyIfCached(req.header) ==>
        && sent == None
        && result == Got(Finish(req, GatewayTimeout()))
        && cache.items == Stored(old(cache.items), CacheKey(req), req, GatewayTimeout())
      ensures !OnlyIfCached(req.header) ==>
        && sent == Some(req)
        && match upstream(req)
           case TransportError(_) => result == upstream(req) && cache.items == old(cache.items)
           case Got(r) => result == Got(Finish(req, r)) && cache.items == Stored(old(cache.items), CacheKey(req), req, r)
    {
      var reqCacheControl := ParseCacheControl(req.header);
      var resp: Response;
      if "only-if-cached" in reqCacheControl {
        resp := GatewayTimeout();
        sent := None;
      } else {
        var fetched := upstream(req);
        sent := Some(req);
        if fetched.TransportError? {
          return fetched, sent;
        }
        resp := fetched.response;
      }
      var final := Store(CacheKey(req), req, resp);
      result := Got(final);
    }

    /** RoundTrip for a request with a usable entry `cachedResp` (already marked): the
        entry itself when fresh, else the transport's answer to the request, with
        validators when stale; a 304 to a GET refreshes the entry. */
    method ServeHit(req: Request, cachedResp: Response, clock: Clock, upstream: Request -> Fetched)
      returns (result: Fetched, sent: Option<Request>)
      modifies cache
      ensures var key := CacheKey(req);
        if HitVerdict(cachedResp, req, clock) == Fresh then
          result == Got(cachedResp) && sent == None && cache.items == old(cache.items)
        else
          var out := Forwarded(cachedResp, req, clock);
          && sent == Some(out)
          && match upstream(out)
             case TransportError(_) => result == upstream(out) && cache.items == old(cache.items) - {key}
             case Got(r) =>
               if out.verb == "GET" && r.statusCode == 304 then
                 var merged := Merge(cachedResp, r);
                 result == Got(Finish(out, merged)) && cache.items == Stored(old(cache.items), key, out, merged)
               else
                 var before := if r.statusCode != 200 then old(cache.items) - {key} else old(cache.items);
                 result == Got(Finish(out, r)) && cache.items == Stored(before, key, out, r)
    {
      var key := CacheKey(req);
      var out := req;
      var matches := VaryMatches(cachedResp.header, req.header);
      if matches {
        var freshness := GetFreshness(cachedResp.header, req.header, clock);
        if freshness == Fresh {
          return Got(cachedResp), None;
        }
        if freshness == Stale {
          out := AddValidators(req, cachedResp.header);
        }
      }
      var fetched := upstream(out);
      sent := Some(out);
      var resp: Response;
      if fetched.Got? && out.verb == "GET" && fetched.response.statusCode == 304 {
        resp := MergeNotModified(cachedResp, fetched.response);
      } else {
        if fetched.TransportError? || fetched.response.statusCode != 200 {
          cache.Delete(key);
        }
        if fetched.TransportError? {
          return fetched, sent;
        }
        resp := fetched.response;
      }
      var final := Store(key, out, resp);
      result := Got(final);
    }

    /** `Transport.RoundTrip`: `upstream` is the transport requests are forwarded to, and
        `sent` the request it received, if any. */
    method RoundTrip(req: Request, clock: Clock, upstream: Request -> Fetched)
      returns (result: Fetched, sent: Option<Request>)
      requires Cacheable(req) ==> Servable(cache.items, req)
      modifies cache
      ensures !Cacheable(req) ==>
        result == upstream(req) && sent == Some(req) && cache.items == old(cache.items) - {CacheKey(req)}
      ensures Cacheable(req) && !Lookup(old(cache.items), req).Hit? ==>
        if OnlyIfCached(req.header) then
          && sent == None
          && result == Got(Finish(req, GatewayTimeout()))
          && cache.items == Stored(old(cache.items), CacheKey(req), req, GatewayTimeout())
        else
          && sent == Some(req)
          && match upstream(req)
             case TransportError(_) => result == upstream(req) && cache.items == old(cache.items)
             case Got(r) => result == Got(Finish(req, r)) && cache.items == Stored(old(cache.items), CacheKey(req), req, r)
      ensures Cacheable(req) && Lookup(old(cache.items), req).Hit? ==>
        var cachedResp := Marked(Lookup(old(cache.items), req).response, markCachedResponses);
        var key := CacheKey(req);
        if HitVerdict(cachedResp, req, clock) == Fresh then
          result == Got(cachedResp) && sent == None && cache.items == old(cache.items)
        else
          var out := Forwarded(cachedResp, req, clock);
          && sent == Some(out)
          && match upstream(out)
             case TransportError(_) => result == upstream(out) && cache.items == old(cache.items) - {key}
             case Got(r) =>
               if out.verb == "GET" && r.statusCode == 304 then
                 var merged := Merge(cachedResp, r);
                 result == Got(Finish(out, merged)) && cache.items == Stored(old(cache.items), key, out, merged)
               else
                 var before := if r.statusCode != 200 then old(cache.items) - {key} else old(cache.items);
                 result == Got(Finish(out, r)) && cache.items == Stored(before, key, out, r)
    {
      var key := CacheKey(req);
      var cacheable := req.verb == "GET" || req.verb == "HEAD";
      var cached := Miss;
      if cacheable {
        cached := CachedResponse(cache, req);
      } else {
        cache.Delete(key);
      }
      if !cacheable {
        return upstream(req), Some(req);
      }
      if cached.Hit? {
        var cachedResp := cached.response;
        if markCachedResponses {
          cachedResp := Marked(cachedResp, true);
        }
        result, sent := ServeHit(req, cachedResp, clock, upstream);
      } else {
        result, sent := ServeMiss(req, upstream);
      }
    }
  }
}

=== FILE: vary.dfy ===
/** Secondary cache keys (section 4.1 of RFC 7234): a stored response remembers, under
    `X-Varied-<Name>`, the request values of the headers its Vary header names, and a new
    request may use it only when its own values are the same. */
module Vary {
  import opened Text
  import opened Headers

  /** The prefix of the headers that hold the request's Vary values. */
  const X_VARIED: string := "X-Varied-"

  /** The names the Vary header lists, over all its lines, trimmed. */
  function VaryNames(h: Header): seq<string> {
    CommaSepValues(Values(h, "vary"))
  }

  /** The header under which a response remembers the request's value of `name`. */
  function VariedHeader(name: string): string {
    X_VARIED + CanonicalKey(name)
  }

  /** The request agrees with the cached response on one Vary name: the name is blank,
      or the request's value equals the remembered one (a missing header reads as ""). */
  predicate Agrees(cached: Header, req: Header, name: string) {
    var k := CanonicalKey(name);
    k == "" || Get(req, k) == Get(cached, VariedHeader(name))
  }

  /** The request agrees with the cached response on every name of its Vary header. */
  predicate Matches(cached: Header, req: Header) {
    var names := VaryNames(cached);
    forall i :: 0 <= i < |names| ==> Agrees(cached, req, names[i])
  }

  /** `varyMatches`: false at the first Vary name whose remembered value differs. */
  method VaryMatches(cached: Header, req: Header) returns (ok: bool)
    ensures ok == Matches(cached, req)
  {
    var names := HeaderAllCommaSepValues(cached, "vary");
    ok := AllAgree(cached, req, names);
  }

  /** The loop of varyMatches over the Vary names `names`. */
  method AllAgree(cached: Header, req: Header, names: seq<string>) returns (ok: bool)
    ensures ok == forall i :: 0 <= i < |names| ==> Agrees(cached, req, names[i])
  {
    var i := 0;
    while i < |names|
      invariant 0 <= i <= |names|
      invariant forall j :: 0 <= j < i ==> Agrees(cached, req, names[j])
    {
      var header := CanonicalKey(names[i]);
      if header != "" && Get(req, header) != Get(cached, VariedHeader(names[i])) {
        return false;
      }
      i := i + 1;
    }
    return true;
  }

  /** A response without a Vary header matches every request. */
  lemma NoVaryMatches(cached: Header, req: Header)
    requires Values(cached, "vary") == []
    ensures Matches(cached, req)
  {
  }

  /** The response with the request's values of the Vary names `names` recorded, left to
      right; a name the request does not carry (or carries empty) records nothing. The
      X-Varied name is already canonical, so `Header.Set` writes under it unchanged
      (`SetVaried`). */
  function Record(resp: Header, req: Header, names: seq<string>): Header {
    if names == [] then resp
    else
      var h := Record(resp, req, names[..|names| - 1]);
      var k := CanonicalKey(names[|names| - 1]);
      var v := Get(req, k);
      if v != "" then h[VariedHeader(names[|names| - 1]) := [v]] else h
  }

  /** The X-Varied snapshot RoundTrip adds to a response before storing it. */
  function Snapshot(resp: Header, req: Header): Header {
    Record(resp, req, VaryNames(resp))
  }

  lemma PrefixTokens()
    ensures X_VARIED != [] && X_VARIED[|X_VARIED| - 1] == '-' && AllTokenChars(X_VARIED)
  {
  }

  lemma PrefixCanonical()
    ensures X_VARIED != [] && X_VARIED[|X_VARIED| - 1] == '-'
    ensures AllTokenChars(X_VARIED) && CanonicalKey(X_VARIED) == X_VARIED
  {
    PrefixTokens();
    var k := CanonicalKey(X_VARIED);
    assert k[0] == 'X' && k[1] == '-' && k[2] == 'V' && k[3] == 'a' && k[4] == 'r';
    assert k[5] == 'i' && k[6] == 'e' && k[7] == 'd' && k[8] == '-';
  }

  /** Behind the canonical prefix a canonical name stays as it is, so each Vary name has
      its own X-Varied header. */
  lemma VariedHeaderCanonical(name: string)
    ensures CanonicalKey(VariedHeader(name)) == VariedHeader(name)
  {
    PrefixCanonical();
    CanonicalBehindPrefix(X_VARIED, name);
  }

  /** Some name of `names` canonicalises to `k`. */
  predicate Lists(names: seq<string>, k: string) {
    exists i :: 0 <= i < |names| && CanonicalKey(names[i]) == k
  }

  lemma ListsAppend(names: seq<string>, n: string, k: string)
    ensures Lists(names + [n], k) <==> Lists(names, k) || CanonicalKey(n) == k
  {
    var all := names + [n];
    if Lists(all, k) {
      var i :| 0 <= i < |all| && CanonicalKey(all[i]) == k;
      if i < |names| {
        assert CanonicalKey(names[i]) == k;
      }
    }
    if Lists(names, k) {
      var i :| 0 <= i < |names| && CanonicalKey(names[i]) == k;
      assert CanonicalKey(all[i]) == k;
    }
    assert all[|names|] == n;
  }

  /** The values stored under exactly the key `key`, without canonicalising it (a proof
      helper: it lets the lemmas below reason about raw map entries instead of `Get`). */
  function Raw(h: Header, key: string): seq<string> {
    if key in h then h[key] else []
  }

  /** Setting an X-Varied header writes under the header's own name. */
  lemma SetVaried(h: Header, n: string, v: string)
    ensures Set(h, VariedHeader(n), v) == h[VariedHeader(n) := [v]]
  {
    VariedHeaderCanonical(n);
  }

  /** Distinct names have distinct X-Varied headers. */
  lemma VariedDistinct(m: string, k: string)
    requires m != k
    ensures X_VARIED + m != X_VARIED + k
  {
    assert (X_VARIED + m)[|X_VARIED|..] == m;
    assert (X_VARIED + k)[|X_VARIED|..] == k;
  }

  /** The entry under the X-Varied header of canonical name `k` after recording: the
      request's value when some recorded name canonicalises to `k` and the request
      carries it, else the response's own entry. */
  lemma {:induction false} RecordedRaw(resp: Header, req: Header, names: seq<string>, k: string)
    requires CanonicalKey(k) == k
    ensures Raw(Record(resp, req, names), X_VARIED + k)
      == if Get(req, k) != "" && Lists(names, k) then [Get(req, k)] else Raw(resp, X_VARIED + k)
  {
    if names != [] {
      var n := |names| - 1;
      var init := names[..n];
      var last := names[n];
      RecordedRaw(resp, req, init, k);
      ListsAppend(init, last, k);
      assert init + [last] == names;
      var h := Record(resp, req, init);
      var m := CanonicalKey(last);
      var v := Get(req, m);
      if v != "" && m != k {
        VariedDistinct(m, k);
      }
    }
  }

  /** What the snapshot holds under the X-Varied header of canonical name `k`: the
      request's value when some recorded name canonicalises to `k` and the request carries
      it, else whatever the response held before. */
  lemma RecordedValue(resp: Header, req: Header, names: seq<string>, k: string)
    requires CanonicalKey(k) == k
    ensures Get(Record(resp, req, names), X_VARIED + k)
      == if Get(req, k) != "" && Lists(names, k) then Get(req, k) else Get(resp, X_VARIED + k)
  {
    RecordedRaw(resp, req, names, k);
    VariedHeaderCanonical(k);
    assert VariedHeader(k) == X_VARIED + k;
  }

  /** Recording touches only headers whose canonical name starts with `X-Varied-`. */
  lemma {:induction false} RecordOnlyVaried(resp: Header, req: Header, names: seq<string>, other: string)
    requires !(X_VARIED <= CanonicalKey(other))
    ensures Values(Record(resp, req, names), other) == Values(resp, other)
  {
    if names != [] {
      var n := |names| - 1;
      RecordOnlyVaried(resp, req, names[..n], other);
      assert X_VARIED <= VariedHeader(names[n]);
    }
  }

  lemma VaryKey()
    ensures CanonicalKey("vary") == "Vary" && !(X_VARIED <= CanonicalKey("vary"))
  {
    var k := CanonicalKey("vary");
    assert k[0] == 'V';
  }

  /** The snapshot leaves the Vary header as it is. */
  lemma SnapshotKeepsVary(resp: Header, req: Header)
    ensures VaryNames(Snapshot(resp, req)) == VaryNames(resp)
  {
    VaryKey();
    RecordOnlyVaried(resp, req, VaryNames(resp), "vary");
  }

  /** The X-Varied headers of the Vary names, which an origin response does not carry. */
  predicate NoVariedHeaders(resp: Header) {
    var names := VaryNames(resp);
    forall i :: 0 <= i < |names| ==> Get(resp, VariedHeader(names[i])) == ""
  }

  /** The round trip of secondary keys: a response stored with the snapshot of a request
      is matched by that same request. */
  lemma SnapshotMatches(resp: Header, req: Header)
    requires NoVariedHeaders(resp)
    ensures Matches(Snapshot(resp, req), req)
  {
    var names := VaryNames(resp);
    var s := Snapshot(resp, req);
    SnapshotKeepsVary(resp, req);
    forall i | 0 <= i < |names| ensures Agrees(s, req, names[i]) {
      var k := CanonicalKey(names[i]);
      CanonicalIdempotent(names[i]);
      RecordedValue(resp, req, names, k);
      assert Lists(names, k);
    }
  }

  /** A request that differs from the recorded one in the value of a Vary name does not
      match the stored response. */
  lemma SnapshotRejectsOther(resp: Header, req: Header, other: Header, i: nat)
    requires NoVariedHeaders(resp)
    requires i < |VaryNames(resp)| && CanonicalKey(VaryNames(resp)[i]) != ""
    requires var k := CanonicalKey(VaryNames(resp)[i]); Get(other, k) != Get(req, k)
    ensures !Matches(Snapshot(resp, req), other)
  {
    var names := VaryNames(resp);
    var k := CanonicalKey(names[i]);
    SnapshotKeepsVary(resp, req);
    CanonicalIdempotent(names[i]);
    RecordedValue(resp, req, names, k);
    assert Lists(names, k);
    assert !Agrees(Snapshot(resp, req), other, names[i]);
  }

  /** The loop of RoundTrip that stores the request's Vary values on the response. */
  method RecordVary(resp: Header, req: Header) returns (h: Header)
    ensures h == Snapshot(resp, req)
  {
    var names := HeaderAllCommaSepValues(resp, "vary");
    h := RecordEach(resp, req, names);
  }

  method RecordEach(resp: Header, req: Header, names: seq<string>) returns (h: Header)
    ensures h == Record(resp, req, names)
  {
    h := resp;
    for i := 0 to |names|
      invariant h == Record(resp, req, names[..i])
    {
      assert names[..i + 1][..i] == names[..i];
      var varyKey := CanonicalKey(names[i]);
      var fakeHeader := X_VARIED + varyKey;
      var reqValue := Get(req, varyKey);
      if reqValue != "" {
        SetVaried(h, names[i], reqValue);
        h := Set(h, fakeHeader, reqValue);
      }
    }
    assert names[..|names|] == names;
  }
}

=== FILE: wrappers.dfy ===
/** Option, used wherever the cache's Go code returns a value together with an `ok` flag
    or an `error`. */
module Wrappers {

  datatype Option<+T> = None | Some(value: T) {
    function GetOr(default: T): T {
      match this
      case Some(v) => v
      case None => default
    }
  }
}
